=== FILE: README.md ===
# Beerhaus community page: a Dafny model of its session and document logic

The Beerhaus community page is a Streamlit app on Firebase. Visitors sign
up, log in, edit a profile, browse members and post announcements with
comments. Nearly all of it is UI. This project models the small amount of
deterministic logic behind the UI and proves properties of it:

- **The session/navigation state machine** (`Navigation`, `Login`, `Signup`).
  - The session is the triple (authenticated, user, current page).
  - It is changed by the sidebar buttons, logout, the login outcomes and the signup outcomes.
  - Each run of `main` forces the page into the set the authentication status allows.
- **Pure record and string functions.**
  - `Text` models Python's `strip`, `split`, `join`, `capitalize` and `in`.
  - `Skills` models the skills parse and its display join.
  - `Users` models the user-document shape and the display name.
  - `Announcements` models the two author-name fallback chains.
  - `Profile` models the old-picture name extraction.
  - `Members` models the member card and the 200-character bio cut.
- **Document writes over an abstract store** (`Store`, `Identity`).
  - The database is `map<string, map<string, Value>>`, with:
    - the plain `set` (replace);
    - `set(..., merge=True)` (a deep merge that keeps unwritten fields);
    - `update` of one field, used for the comment append.
  - The identity provider is a partial map from e-mail to user handle.

Clocks, random tokens, signed URLs and the outcomes of SDK calls are
parameters. A failing SDK call is a boolean or enumerated fault.

Modules, one per file:

- `optional.dfy`: `Option`
- `text.dfy`: string operations
- `store.dfy`: values and writes
- `identity.dfy`: provider accounts
- `users.dfy`: user-document shape
- `skills.dfy`: skills field
- `navigation.dfy`: `app.py`
- `login.dfy`, `signup.dfy`, `profile.dfy`, `announcements.dfy`, `members.dfy`: one view each

Characters are Dafny `char`s. Whitespace is the ASCII part of Python's
`str.isspace` (tab through carriage return, 0x1C–0x1F, space), and case
mapping is ASCII only.

## Model

| member | source | states |
|---|---|---|
| Navigation.Initialise | app.py:16-21 | each session key keeps a value already present; only a missing key gets its default (not signed in, no user, Login — or Home when the home view's import has run first) |
| Navigation.FreshSessionStartsAtLogin | Views/home.py:7-8 | a first visit starts signed out on Login even when the home view's import defaulted the page to Home, because the first run redirects it |
| Navigation.FreshSessionConsistent | app.py:16-21 | the default session holds a user exactly when signed in |
| Navigation.Logout | app.py:23-28 | whatever the prior state: signed out, no user, page Login |
| Navigation.NavigateTo | app.py:30-33 | only the page changes, and it becomes the requested one |
| Navigation.PressSidebar | app.py:58-80 | pressing a page's button leaves that page current, whether or not it was already current; nothing else changes |
| Navigation.NameRoundTrip | app.py:88-109 | page names and page values correspond one to one; an `Other` value never spells a known page name |
| Navigation.Canon | app.py:88-109 | the page as `main` compares it, by name: a canonical page with the same name, and a canonical page is left as it is |
| Navigation.Dispatch | app.py:88-109 | a page is rendered exactly when its status allows it (pages compared by name), and the view rendered is that page's own view; otherwise a redirect goes to Home (signed in) or Login (signed out) |
| Navigation.RouteByName | app.py:88-109 | two sessions with the same status whose pages spell the same name are routed alike |
| Navigation.Normalise | app.py:88-109 | the result's page is allowed for its status; status and user are kept; an allowed state is left alone; otherwise the page is reset to Home or Login |
| Navigation.NormaliseIdempotent | app.py:88-109 | normalising twice equals normalising once, and a normalised state is never redirected again |
| Navigation.NormaliseFixpoints | app.py:88-109 | normalisation leaves a state unchanged if and only if its page is allowed |
| Navigation.Apply | app.py:53-85 | a sidebar button sets only the page, to its target; the sign-out button signs out and goes to Login; a sign-in sets user and status only; the signup and login links set only the page; an ignored event changes nothing |
| Navigation.React | app.py:53-109 | after any interaction the next run shows an allowed page |
| Navigation.LogoutEvent | app.py:84-85 | on a signed-in page, the sign-out button ends in the signed-out session on Login |
| Navigation.SidebarEvent | app.py:58-80 | on a signed-in page, a sidebar button ends on its target page with status and user kept |
| Navigation.DisabledEventIgnored | app.py:53-109 | a button the shown page does not offer leaves the shown session as it was |
| Navigation.RunInvariant | app.py:53-109 | from any consistent state, every event sequence keeps "signed in exactly when a user is held" and ends on an allowed page |
| Navigation.SignInLandsHome | Views/login.py:20-24 | a login leaves the page where it was (the login page); the next run moves the signed-in visitor to Home |
| Navigation.LogoutShowsLogin | app.py:84-85 | after logout the next run renders the login view |
| Identity.LookupByEmail | Views/login.py:20 | a provider fault fails the lookup; otherwise the handle registered under the e-mail is found, or the lookup reports not-found |
| Identity.CreateAccount | Views/signup.py:60-61 | an account is created exactly when the provider does not fail and the e-mail is free; it maps the e-mail to a handle with the new uid |
| Login.SubmitLogin | Views/login.py:16-28 | a found account signs in with the provider's handle and a welcome; not-found and other failures leave the session unchanged with distinct notices; the page never changes |
| Login.PasswordIgnored | Views/login.py:12-20 | the password never affects the outcome |
| Login.ForgotPassword | Views/login.py:31-32 | only a notice; the session is unchanged |
| Login.GoToSignUp | Views/login.py:36-38 | only the page changes, to SignUp |
| Login.LoginIsEvent | Views/login.py:16-38 | every login-page action is a navigation event the login page offers, so the session invariant covers it |
| Login.LoginThenHome | Views/login.py:20-24 | a successful login followed by a run shows Home with the handle as user |
| Users.PictureKey | Views/signup.py:66 | an uploaded picture's key is "profile_pics/" followed by uid, "_" and the token |
| Users.ProfileDoc | Views/profile.py:103-120 | the shared fields: the given e-mail and picture; the address nested with its five keys; skills as the parsed list; every form text field as typed; no role or timestamps |
| Users.ProfileDocValues | Views/profile.py:103-119 | first and last name, company, position, phone and bio hold the form's texts, and the address is the nested address map |
| Users.AddressFields | Views/profile.py:110-116 | the nested address holds exactly street, city, state, zip code and country, each with the form's text |
| Users.ProfileDocKeys | Views/signup.py:71-90 | the fields both forms write are exactly ten keys |
| Users.FullName | Views/members.py:18 | the name is first + " " + last with only whitespace cut from each end; it is trimmed, and empty exactly when both parts are blank |
| Signup.SignupDoc | Views/signup.py:71-90 | the new document is the shared profile fields (form e-mail, picture URL, texts, nested address, parsed skills) plus role "user" and the creation time, and nothing else |
| Signup.SignupCard | Views/members.py:16-42 | the member card of a freshly created document shows the form back: trimmed full name, the picture or the default image, role "User", e-mail, position, company, phone, city, country, the parsed skills joined again, and the bio |
| Signup.SubmitSignup | Views/signup.py:57-100 | success means no step failed and the e-mail was free. Success moves the page to Login and replaces the document under the uid; failure leaves session and users unchanged. With no picture the blobs are unchanged. A created account stays even if a later step fails |
| Signup.NoRollback | Views/signup.py:60-100 | an upload or write failure after the account was created leaves the account without a user document |
| Signup.CreatedDocument | Views/signup.py:64-92 | the stored document has role "user" and the form's address; with no picture the URL is ""; other users are untouched |
| Signup.BackToLogin | Views/signup.py:104-106 | only the page changes, to Login |
| Signup.SignupIsEvent | Views/signup.py:94-106 | a signup's session change is the navigation model's to-Login event on success and no change on failure |
| Skills.Parse | Views/signup.py:88 | empty input gives no skills; otherwise one piece per comma plus one, the k-th being the k-th comma-separated piece stripped, empty pieces kept |
| Skills.ParseThree | Views/signup.py:88 | a text that splits into three pieces parses to the three pieces stripped |
| Skills.ParseExample | Views/signup.py:88 | "a, b ,c" parses to ["a", "b", "c"] |
| Skills.Stored | Views/signup.py:88 | the stored list has one string value per skill, in order |
| Skills.ShowStored | Views/members.py:27 | a stored list of strings shows as its ", " join; a list holding a non-string raises; a stored string is joined letter by letter; every other value is treated as an error (see Left out) |
| Skills.ShowField | Views/profile.py:81 | a document without skills shows ""; otherwise its stored value is shown as above |
| Skills.ParseShow | Views/profile.py:81-118 | parsing the ", "-joined list of trimmed, comma-free skills gives the list back, if and only if the list is not the single empty skill |
| Text.Strip | Views/signup.py:88 | the result has no whitespace at either end, and is a slice of the input with only whitespace cut on each side |
| Text.StripIdempotent | Views/signup.py:88 | stripping twice equals stripping once |
| Text.StripLeadingBlank | Views/profile.py:118 | a blank before a trimmed piece is stripped away |
| Text.Split | Views/signup.py:88 | one piece more than there are separators; no piece contains the separator; joining the pieces with it gives the input back |
| Text.SplitJoin | Views/signup.py:88 | splitting the join of separator-free pieces gives the pieces back |
| Text.AfterLast | Views/profile.py:93 | the text after the last separator: a separator-free suffix that is the whole string or follows a separator |
| Text.BeforeFirst | Views/profile.py:93 | the text before the first separator: a separator-free prefix that is the whole string or is followed by a separator |
| Text.Count | Views/signup.py:88 | the count is at most the length, and zero exactly when the character is absent |
| Text.CountIsMultiplicity | Views/signup.py:88 | the count of a character is its multiplicity in the string |
| Text.Capitalize | Views/members.py:19 | same length; the first character in upper case; every later one in lower case |
| Text.CapitalizeIdempotent | Views/members.py:19 | capitalising twice equals capitalising once |
| Store.SetDoc | Views/signup.py:92 | a plain set makes the document exactly the new one; other documents are untouched |
| Store.MergeValue | Views/profile.py:124 | two maps merge key by key, keeping old keys the update does not name; any other update value replaces the old one |
| Store.MergeValueKeeps | Views/profile.py:124 | the merge is deep: at every depth of nested maps, every old key survives and a field the update does not name keeps its old value |
| Store.MergeValueCovers | Views/profile.py:124 | every leaf the update writes is in the merged value with the written value |
| Store.MergeDoc | Views/profile.py:123-124 | a merge set creates a missing document as the update, keeps every field the update omits at any depth of nested maps, overwrites non-map fields, covers the update and leaves other documents alone |
| Store.MergeDocIdempotent | Views/profile.py:124 | merging the same update twice gives what merging it once gave |
| Store.UpdateField | Views/announcements.py:137 | an update replaces one field; every other field and document is unchanged |
| Profile.UserData | Views/profile.py:8-11 | an existing document is returned as is; a missing document and a failed read both give the empty record |
| Profile.CurrentPicture | Views/profile.py:34 | the stored picture value whenever the key is present (even ""); the placeholder avatar only when it is absent |
| Profile.OldBlobName | Views/profile.py:93 | the extracted old-picture name contains neither "/" nor "?" |
| Profile.OldBlobNameIsNeverAKey | Views/profile.py:93-99 | the extracted name never equals a picture key of the form the views create |
| Profile.AsWrittenMissesStoredKey | Views/profile.py:93-99 | applied to the signed URL of a stored picture, the extraction yields uid_token, which is not the stored key |
| Profile.OldBlobKey | Views/profile.py:93 | the corrected key is the extracted name under "profile_pics/" |
| Profile.CorrectedFindsStoredKey | Views/profile.py:93-99 | the corrected extraction recovers the stored key from its signed URL |
| Profile.DeleteOld | Views/profile.py:91-98 | deletion is attempted only when the current URL is non-empty text containing "profile_pics"; a failed deletion leaves the blobs unchanged; at most the blob named by the extracted name is removed, so no blob under "profile_pics/" is ever removed |
| Profile.DeleteOldCorrected | Views/profile.py:91-98 | the same guard and failure handling, removing the old picture's key under "profile_pics/" |
| Profile.ProfileUpdate | Views/profile.py:103-121 | the save writes the shared profile fields (session e-mail, picture value, texts, address, parsed skills) plus the save time, and nothing else; no role and no creation time |
| Profile.SaveProfile | Views/profile.py:87-130 | a save succeeds exactly when neither the upload (if any) nor the write fails; success merges the update into the user's document; failure leaves the users unchanged; with no upload the blobs are unchanged |
| Profile.SaveProfileCorrected | Views/profile.py:87-130 | the same outcome and user writes as the save above, with the corrected deletion |
| Profile.SaveBlobs | Views/profile.py:90-101 | with a new picture, only the new key can be added, and it is present once the upload succeeds; at most the blob with the extracted name is removed, and every blob under "profile_pics/", the old picture included, survives |
| Profile.SaveBlobsCorrected | Views/profile.py:90-101 | with the corrected deletion, the old picture's key is removed when the URL qualifies and the delete succeeds; only the new key can be added |
| Profile.SaveVariantsAgree | Views/profile.py:87-130 | the as-written and corrected saves agree on the outcome and on every user document; they differ only in the blobs |
| Profile.SaveIsMerge | Views/profile.py:103-124 | after a save the document has the session e-mail, keeps role and creation time, keeps the picture value when nothing was uploaded, and no other user changes |
| Profile.PasswordIgnored | Views/profile.py:54-56 | the password input has no effect on the save |
| Profile.UneditedSkillsSurviveSave | Views/profile.py:81-118 | saving with the skills input as loaded writes the stored list back unchanged (list not [""], entries trimmed and comma-free) |
| Announcements.LookupUser | Views/announcements.py:38-39 | the user document is found exactly when the read does not fail and the uid is present |
| Announcements.CommentByline | Views/announcements.py:143-176 | no uid, or a missing or unreadable document, gives the placeholder and "Anonymous". With a document, a present picture key is used even if "", and the name is the document's, else the handle's, else the handle's e-mail |
| Announcements.CommentNameNonEmpty | Views/announcements.py:172-174 | the comment author name is empty only when the handle's e-mail is |
| Announcements.PostAuthor | Views/announcements.py:31-51 | no user or uid gives ""; a failed lookup gives the e-mail; otherwise the document's name, else the handle's, else the e-mail |
| Announcements.ChainsAgreeOnFoundDocument | Views/announcements.py:36-49 | with a document and an e-mail attribute, both chains give the same name |
| Announcements.ChainsDifferOnMissingDocument | Views/announcements.py:143-176 | with the document missing, the comment author stays "Anonymous" while the post author falls back to the handle's name or e-mail |
| Announcements.NewAnnouncement | Views/announcements.py:59-65 | a new announcement has exactly the five fields: the typed title and content, the given author, the posting time and an empty comment list |
| Announcements.PostAnnouncement | Views/announcements.py:53-70 | the empty-field warning is reported exactly when the title or content is empty, and creates nothing; otherwise, unless the write fails, the collection gains exactly the new announcement under the fresh id and every earlier one is unchanged |
| Announcements.PostedShape | Views/announcements.py:59-66 | a posted announcement has an empty comment list and the resolved author; other announcements are untouched |
| Announcements.Comments | Views/announcements.py:135 | a missing comment list reads as empty; a non-list value cannot be appended to |
| Announcements.NewComment | Views/announcements.py:125-130 | a comment record has exactly the typed text, the byline's name and picture, and the posting time |
| Announcements.AddComment | Views/announcements.py:113-141 | the silent no-op is reported exactly when the text is empty, so a failure on non-empty text is always the error outcome; the comment is stored exactly when the announcement exists, its comments are a list and the write succeeds; the list becomes old + [new] |
| Announcements.CommentAppends | Views/announcements.py:134-137 | the list grows by one, the old comments are an unchanged prefix, the new comment is last, and no other field or announcement changes |
| Members.Field | Views/members.py:20-26 | a missing field shows as an em dash; a present text field shows as stored, so "" stays "" |
| Members.RoleTitle | Views/members.py:19 | a missing role shows as "User"; a text role is shown capitalised, with its length kept; any other value raises |
| Members.AddressOf | Views/members.py:24 | a missing address reads as an empty map; a stored map is returned as it is, so the card reads its city and country; a value that is not a map raises |
| Members.BioText | Views/members.py:28 | a missing or null bio is empty; a text bio is kept; any other value is an error |
| Members.CardShape | Views/members.py:16-42 | the contract of the card projection: a card exists exactly when role, address, skills and bio can be read. Its picture is the stored value if truthy, else the default image (so "" maps to the default). Its name is the trimmed full name, its role the capitalised role ("User" when missing). E-mail, position, company and phone are the field as stored, or the dash when missing, and "" stays "". City and country come from the address; skills and bio as read |
| Members.ProjectAll | Views/members.py:15-44 | one projected card per document, in order, or failure as soon as one document cannot be projected |
| Members.ListMembers | Views/members.py:9-73 | the listing fails exactly when the stream fails or some document cannot be projected; it is empty exactly for an empty stream; otherwise the i-th card is the i-th document's |
| Members.ShownSkills | Views/members.py:66-67 | the skills line appears exactly when the joined skills are non-empty |
| Members.ShownBio | Views/members.py:68-69 | the bio line appears exactly when the bio is non-empty. It has at most 203 characters and equals a bio of at most 200 characters; a longer bio becomes its first 200 characters followed by "..." |
| Members.ShownBioUnchangedIff | Views/members.py:68-69 | the shown bio is the bio itself exactly when it fits in 200 characters, or is 200 characters followed by "..." |

## Left out

- Rendering is not modelled: Streamlit widgets, layout, HTML/CSS, `st.rerun`, the caches and the sleep before redirecting. A rerun is the next step of the navigation model.
- The announcement feed is not modelled: its query ordering and limit are done by the store, and rendering posts and comments is display only.
- The profile page's read-only display and its not-signed-in warning are not modelled; they write nothing.
- The home view (a stub) and the configuration modules (SDK setup, secrets) have no logic to model. Only the home view's import-time page default appears, as `homeImportRuns`.
- Clocks, uuid tokens and signed-URL generation are parameters. The signed URL of a stored picture is assumed to have the shape base, "/", object key, "?", signature.
- Exceptions are modelled only as a failure flag per SDK call, with no messages.
- The read-append-write race between two concurrent comments is not modelled; the model is single-threaded.
- Unicode behaviour of `strip` and `capitalize` is not modelled, only ASCII whitespace and case.
- Identity.Handle: an attribute is either present with a text value or missing. A provider object whose attribute exists but holds `None` is modelled as missing: Login then reports the generic failure after signing in, and the name chains fall back to the `getattr` default.
- Store.Value: a value's display text is exact for strings and null; other kinds show "" instead of their Python repr. No view writes such values into a field it displays as text.
- Members.BioText: a stored bio that is neither text nor null is treated as an error. Python would show a list bio's repr, and raise only when slicing a map or timestamp.
- Members.ListMembers: a failure on a later document is reported as a failed listing. The cards already rendered before it are not modelled.
- Store.MergeValue: an empty map in the update leaves the old nested map as it was, where the document store writes the empty map over it; no view writes an empty map.
- Profile.MayDelete: a timestamp stored as the picture value makes the `in` test raise outside the inner `try`, so the whole save fails; the model skips the deletion and saves. No view stores a timestamp there.
- Profile.SaveIsMerge: claims the picture is kept after a save without upload only for non-map values, because a stored map there would be merged rather than replaced.
- Announcements.AddComment: the comment form is shown only to signed-in visitors, but the handle is taken as given.
- Announcements.PostAnnouncement: the 100-character title limit is enforced by the input widget and is not modelled; the fresh document id the store generates is a parameter assumed absent from the collection.
- Skills.ShowStored: a stored map would show its keys joined in the map's order; map order is not modelled, so that case, and timestamps and null (which raise in Python), are treated as an error.

## Findings

| source | as written | input that shows it | evidently intended | confidence | as-written member | corrected member |
|---|---|---|---|---|---|---|
| Views/profile.py:93 | the old picture's blob name is taken as the last path segment of its signed URL, query removed | a picture stored under key "profile_pics/u1_t1" with signed URL "https://host/bucket/profile_pics/u1_t1?sig" gives the name "u1_t1"; no blob has that name, so the old picture is never deleted | the name under its folder, "profile_pics/u1_t1", the key the upload at line 99 created | not executed; medium (depends on the signed URL keeping the object key as its path) | Profile.AsWrittenMissesStoredKey | Profile.CorrectedFindsStoredKey |
| Views/profile.py:93-96 | the save deletes the blob named by that extracted name | any save with a new picture while the current URL mentions "profile_pics": the extracted name has no "/", so no blob under "profile_pics/" is removed and the old picture stays stored | the save removes the old picture's key | not executed; medium (same dependency as above) | Profile.SaveBlobs | Profile.SaveBlobsCorrected |

`Profile.SaveProfile` and `Profile.DeleteOld` model the save as written.
`Profile.SaveProfileCorrected` and `Profile.DeleteOldCorrected` use the
recovered key `Profile.OldBlobKey`. `Profile.SaveVariantsAgree` shows
that the correction changes nothing but the stored blobs.

=== FILE: announcements.dfy ===
/**
 The announcements view: posting an announcement with an author name
 resolved from the user document, and appending a comment whose author
 name and picture are resolved by a second, slightly different chain.
 */
module Announcements {
  import opened Optional
  import opened Store
  import opened Identity
  import opened Users

  /** The outcome of reading the signed-in user's document. */
  datatype UserLookup = DocFound(doc: Doc) | DocMissing | LookupFailed

  function LookupUser(users: Collection, uid: string, fault: bool): (r: UserLookup)
    ensures r.DocFound? <==> !fault && uid in users
    ensures r.DocFound? ==> r.doc == users[uid]
    ensures r.LookupFailed? <==> fault
  {
    if fault then LookupFailed else if uid in users then DocFound(users[uid]) else DocMissing
  }

  /** The session user exists and has a non-empty uid. */
  predicate HasUid(user: Option<Handle>) {
    user.Some? && user.value.uid.Some? && user.value.uid.value != ""
  }

  /** The name carried by the handle itself, missing attributes read as "". */
  function HandleName(h: Handle): string {
    FullName(h.firstName.GetOr(""), h.lastName.GetOr(""))
  }

  /** Author picture and name attached to a comment. */
  datatype Byline = Byline(picture: Value, name: string)

  const AnonymousByline := Byline(Str(AvatarPlaceholder), "Anonymous")

  /** `_get_user_profile_data`: without a uid, or when the document is
      missing or unreadable, the placeholder picture and "Anonymous". With a
      document, the picture is its stored value whenever the key is present,
      and the name is the first non-empty of the document's name, the
      handle's name and the handle's e-mail ("Anonymous" if it has none). */
  function CommentByline(user: Option<Handle>, lookup: UserLookup): (b: Byline)
    ensures !HasUid(user) || !lookup.DocFound? ==> b == AnonymousByline
    ensures HasUid(user) && lookup.DocFound? ==>
      b.picture == Get(lookup.doc, "profile_pic_url", Str(AvatarPlaceholder))
    ensures HasUid(user) && lookup.DocFound? && DocName(lookup.doc) != "" ==> b.name == DocName(lookup.doc)
    ensures HasUid(user) && lookup.DocFound? && DocName(lookup.doc) == "" && HandleName(user.value) != "" ==>
      b.name == HandleName(user.value)
    ensures HasUid(user) && lookup.DocFound? && DocName(lookup.doc) == "" && HandleName(user.value) == "" ==>
      b.name == user.value.email.GetOr("Anonymous")
  {
    if !HasUid(user) then AnonymousByline
    else
      match lookup
      case DocFound(d) =>
        var resolved := if DocName(d) != "" then DocName(d) else HandleName(user.value);
        var name := if resolved == "" || resolved == " " then user.value.email.GetOr("Anonymous") else resolved;
        Byline(Get(d, "profile_pic_url", Str(AvatarPlaceholder)), name)
      case _ => AnonymousByline
  }

  /** The comment name is empty only when the handle's e-mail itself is. */
  lemma CommentNameNonEmpty(user: Option<Handle>, lookup: UserLookup)
    requires CommentByline(user, lookup).name == ""
    ensures user.Some? && user.value.email == Some("")
  {
  }

  /** The author autofill of the post form: "" without a user or uid; the
      e-mail ("" if none) when the lookup raises; otherwise the document's
      name if the document exists and has one, else the handle's name, else
      the e-mail. */
  function PostAuthor(user: Option<Handle>, lookup: UserLookup): (name: string)
    ensures !HasUid(user) ==> name == ""
    ensures HasUid(user) && lookup.LookupFailed? ==> name == user.value.email.GetOr("")
    ensures HasUid(user) && lookup.DocFound? && DocName(lookup.doc) != "" ==> name == DocName(lookup.doc)
    ensures HasUid(user) && !lookup.LookupFailed? && !(lookup.DocFound? && DocName(lookup.doc) != "") ==>
      name == if HandleName(user.value) != "" then HandleName(user.value) else user.value.email.GetOr("")
  {
    if !HasUid(user) then ""
    else
      var h := user.value;
      match lookup
      case LookupFailed => h.email.GetOr("")
      case DocFound(d) =>
        var resolved := if DocName(d) != "" then DocName(d) else HandleName(h);
        if resolved == "" || resolved == " " then h.email.GetOr("") else resolved
      case DocMissing =>
        var resolved := HandleName(h);
        if resolved == "" || resolved == " " then h.email.GetOr("") else resolved
  }

  /** The two chains agree when the document exists and the handle has an
      e-mail attribute. */
  lemma ChainsAgreeOnFoundDocument(user: Option<Handle>, d: Doc)
    requires HasUid(user) && user.value.email.Some?
    ensures CommentByline(user, DocFound(d)).name == PostAuthor(user, DocFound(d))
  {
  }

  /** With the document missing the comment stays "Anonymous", while the
      post form falls back to the handle's name or e-mail. */
  lemma ChainsDifferOnMissingDocument(user: Option<Handle>)
    requires HasUid(user)
    ensures CommentByline(user, DocMissing).name == "Anonymous"
    ensures PostAuthor(user, DocMissing) ==
      if HandleName(user.value) != "" then HandleName(user.value) else user.value.email.GetOr("")
  {
  }

  /** The stored announcement: the typed title and content, the resolved
      author, the posting time and no comments yet. */
  function NewAnnouncement(title: string, content: string, author: string, now: int): (d: Doc)
    ensures d.Keys == {"title", "content", "author", "timestamp", "comments"}
    ensures d["title"] == Str(title) && d["content"] == Str(content)
    ensures d["author"] == Str(author) && d["timestamp"] == Stamp(now)
    ensures d["comments"] == List([])
  {
    map["title" := Str(title), "content" := Str(content), "author" := Str(author),
        "timestamp" := Stamp(now), "comments" := List([])]
  }

  datatype PostOutcome = MissingField | PostFailed | Posted(announcements: Collection)

  /** "Post Announcement": an empty title or content is refused before any
      write; otherwise the new document is added under the fresh id the
      store generates, unless the write fails. A posted collection holds
      one more announcement and every earlier one unchanged. */
  function PostAnnouncement(announcements: Collection, title: string, content: string, author: string,
                            now: int, newId: string, fault: bool): (r: PostOutcome)
    requires newId !in announcements
    ensures r == MissingField <==> title == "" || content == ""
    ensures r.Posted? <==> title != "" && content != "" && !fault
    ensures r.Posted? ==> r.announcements.Keys == announcements.Keys + {newId}
    ensures r.Posted? ==> |r.announcements| == |announcements| + 1
    ensures r.Posted? ==> r.announcements[newId] == NewAnnouncement(title, content, author, now)
    ensures r.Posted? ==> forall id | id in announcements :: r.announcements[id] == announcements[id]
  {
    if title == "" || content == "" then MissingField
    else if fault then PostFailed
    else Posted(SetDoc(announcements, newId, NewAnnouncement(title, content, author, now)))
  }

  /** A freshly posted announcement has no comments and the resolved author. */
  lemma PostedShape(announcements: Collection, title: string, content: string, user: Option<Handle>,
                    lookup: UserLookup, now: int, newId: string)
    requires newId !in announcements
    requires title != "" && content != ""
    ensures var r := PostAnnouncement(announcements, title, content, PostAuthor(user, lookup), now, newId, false);
      && r.Posted?
      && r.announcements[newId]["comments"] == List([])
      && r.announcements[newId]["author"] == Str(PostAuthor(user, lookup))
      && forall other | other in announcements && other != newId :: r.announcements[other] == announcements[other]
  {
  }

  /** The comment record as stored: the typed text, the byline's name and
      picture, and the posting time. */
  function NewComment(text: string, b: Byline, now: int): (v: Value)
    ensures v.Fields? && v.fields.Keys == {"text", "author", "timestamp", "author_pic"}
    ensures v.fields["text"] == Str(text) && v.fields["author"] == Str(b.name)
    ensures v.fields["timestamp"] == Stamp(now) && v.fields["author_pic"] == b.picture
  {
    Fields(map["text" := Str(text), "author" := Str(b.name), "timestamp" := Stamp(now), "author_pic" := b.picture])
  }

  /** The comment list of an announcement: missing reads as empty; a value
      that is not a list cannot be appended to. */
  function Comments(d: Doc): (r: Option<seq<Value>>)
    ensures "comments" !in d ==> r == Some([])
    ensures "comments" in d ==> (r.Some? <==> d["comments"].List?)
    ensures "comments" in d && r.Some? ==> r.value == d["comments"].items
  {
    match Get(d, "comments", List([]))
    case List(items) => Some(items)
    case _ => None
  }

  datatype CommentOutcome = NoComment | CommentFailed | Commented(announcements: Collection)

  /** "Post Comment": empty text does nothing; otherwise the announcement is
      re-read, the new comment appended to its list and the list written
      back. A missing announcement, a non-list comments value or a failed
      write is reported as an error and changes nothing. */
  function AddComment(announcements: Collection, postId: string, text: string,
                      user: Option<Handle>, lookup: UserLookup, now: int, fault: bool): (r: CommentOutcome)
    ensures r == NoComment <==> text == ""
    ensures r.Commented? <==> text != "" && postId in announcements && Comments(announcements[postId]).Some? && !fault
    ensures r.Commented? ==>
      r.announcements == UpdateField(announcements, postId, "comments",
        List(Comments(announcements[postId]).value + [NewComment(text, CommentByline(user, lookup), now)]))
  {
    if text == "" then NoComment
    else if postId !in announcements then CommentFailed
    else match Comments(announcements[postId])
      case None => CommentFailed
      case Some(existing) =>
        if fault then CommentFailed
        else
          var appended := existing + [NewComment(text, CommentByline(user, lookup), now)];
          Commented(UpdateField(announcements, postId, "comments", List(appended)))
  }

  /** Appending grows the list by one, keeps the old comments as an
      unchanged prefix, puts the new comment last, and leaves every other
      field and announcement as it was. */
  lemma {:induction false} CommentAppends(announcements: Collection, postId: string, text: string,
                                          user: Option<Handle>, lookup: UserLookup, now: int)
    requires text != "" && postId in announcements && Comments(announcements[postId]).Some?
    ensures var r := AddComment(announcements, postId, text, user, lookup, now, false);
      var before := Comments(announcements[postId]).value;
      && r.Commented?
      && Comments(r.announcements[postId]).Some?
      && var after := Comments(r.announcements[postId]).value;
      && |after| == |before| + 1
      && after[..|before|] == before
      && after[|before|] == NewComment(text, CommentByline(user, lookup), now)
      && (forall k | k in announcements[postId] && k != "comments" :: r.announcements[postId][k] == announcements[postId][k])
      && (forall other | other in announcements && other != postId :: r.announcements[other] == announcements[other])
  {
    var before := Comments(announcements[postId]).value;
    var appended := before + [NewComment(text, CommentByline(user, lookup), now)];
    var r := AddComment(announcements, postId, text, user, lookup, now, false);
    assert r.announcements[postId]["comments"] == List(appended);
    assert appended[..|before|] == before;
  }
}

=== FILE: identity.dfy ===
/**
 The identity provider as the views see it: a partial map from e-mail to
 the handle the provider returns. Provider faults (network, invalid input)
 are an explicit `fault` flag.
 */
module Identity {
  import opened Optional

  /** The user object stored in the session. Each attribute may be missing
      from the object, in which case `getattr` falls back to its default. */
  datatype Handle = Handle(uid: Option<string>, email: Option<string>, firstName: Option<string>, lastName: Option<string>)

  type Accounts = map<string, Handle>

  /** Outcome of `get_user_by_email`. */
  datatype Lookup = Found(handle: Handle) | NotFound | Failed

  function LookupByEmail(accounts: Accounts, email: string, fault: bool): (r: Lookup)
    ensures fault ==> r == Failed
    ensures !fault && email in accounts ==> r == Found(accounts[email])
    ensures !fault && email !in accounts ==> r == NotFound
  {
    if fault then Failed
    else if email in accounts then Found(accounts[email])
    else NotFound
  }

  /** `create_user(email=..., password=...)`: registers a new account under
      the uid the provider assigns, refused when the e-mail is taken or the
      provider fails. The handle carries no name attributes. */
  function CreateAccount(accounts: Accounts, email: string, uid: string, fault: bool): (r: Option<Accounts>)
    ensures r.Some? <==> !fault && email !in accounts
    ensures r.Some? ==> r.value == accounts[email := NewHandle(email, uid)]
  {
    if fault || email in accounts then None
    else Some(accounts[email := NewHandle(email, uid)])
  }

  function NewHandle(email: string, uid: string): Handle {
    Handle(Some(uid), Some(email), None, None)
  }
}

=== FILE: login.dfy ===
/**
 The login view: an e-mail lookup at the identity provider decides the
 outcome; the password field is read but never consulted.
 */
module Login {
  import opened Optional
  import opened Identity
  import opened Navigation

  /** The notice the view shows after a button press. */
  datatype Notice = Welcome(email: string) | UserNotFound | LoginFailed | ResetInfo

  datatype Outcome = Outcome(session: Session, notice: Option<Notice>)

  /** The "Login" button. A found account signs the visitor in with the
      provider's handle and leaves the page as it is; a missing account and
      any other provider failure leave the session unchanged with their own
      notices. Reading the handle's e-mail for the greeting happens after
      the session is updated, so a handle without one still signs in but
      reports the generic failure. */
  function SubmitLogin(s: Session, accounts: Accounts, email: string, password: string, fault: bool): (r: Outcome)
    ensures !fault && email in accounts ==>
      r.session == s.(authenticated := true, user := Some(accounts[email]))
    ensures !fault && email in accounts && accounts[email].email.Some? ==>
      r.notice == Some(Welcome(accounts[email].email.value))
    ensures !fault && email !in accounts ==> r == Outcome(s, Some(UserNotFound))
    ensures fault ==> r == Outcome(s, Some(LoginFailed))
    ensures r.session.page == s.page
  {
    match LookupByEmail(accounts, email, fault)
    case Found(h) =>
      var signedIn := s.(user := Some(h), authenticated := true);
      if h.email.Some? then Outcome(signedIn, Some(Welcome(h.email.value)))
      else Outcome(signedIn, Some(LoginFailed))
    case NotFound => Outcome(s, Some(UserNotFound))
    case Failed => Outcome(s, Some(LoginFailed))
  }

  /** Only the e-mail decides the outcome. */
  lemma PasswordIgnored(s: Session, accounts: Accounts, email: string, p1: string, p2: string, fault: bool)
    ensures SubmitLogin(s, accounts, email, p1, fault) == SubmitLogin(s, accounts, email, p2, fault)
  {
  }

  /** "Forgot Password?" only shows an informational notice. */
  function ForgotPassword(s: Session): (r: Outcome)
    ensures r.session == s && r.notice == Some(ResetInfo)
  {
    Outcome(s, Some(ResetInfo))
  }

  /** "Go to Sign Up" changes only the page. */
  function GoToSignUp(s: Session): (r: Session)
    ensures r == s.(page := SignUp)
  {
    NavigateTo(s, SignUp)
  }

  /** Every login-page action is one of the navigation events, so the
      session invariants of the navigation model cover it. */
  lemma {:induction false} LoginIsEvent(s: Session, accounts: Accounts, email: string, password: string, fault: bool)
    requires Enabled(s, ToSignUp)
    ensures var r := SubmitLogin(s, accounts, email, password, fault);
      (!fault && email in accounts && r.session == Apply(s, SignedIn(accounts[email])) && Enabled(s, SignedIn(accounts[email])))
      || r.session == Apply(s, Unchanged)
    ensures ForgotPassword(s).session == Apply(s, Unchanged)
    ensures GoToSignUp(s) == Apply(s, ToSignUp)
  {
  }

  /** A successful login on the login page is followed by a run that shows
      the home page to the signed-in visitor. */
  lemma LoginThenHome(s: Session, accounts: Accounts, email: string, password: string)
    requires !s.authenticated && s.page == Login
    requires email in accounts
    ensures Normalise(SubmitLogin(s, accounts, email, password, false).session)
      == Session(true, Some(accounts[email]), Home)
  {
  }
}

=== FILE: members.dfy ===
/**
 The members view: every user document is projected into a display card,
 in the order the store streams them; the skills and bio lines are shown
 only when non-empty, the bio cut at 200 characters.
 */
module Members {
  import opened Optional
  import opened Text
  import opened Store
  import opened Users
  import Skills

  const DefaultPicture := "images/default.jpg"

  /** The em dash shown for a missing field. */
  const Dash := "\U{2014}"

  const BioLimit := 200

  datatype Card = Card(name: string, picture: Value, role: string, email: string, position: string,
                       company: string, phone: string, city: string, country: string,
                       skills: string, bio: string)

  /** A text field of the card: the stored value, or the dash when the key
      is missing; a present empty value stays empty. */
  function Field(d: Doc, key: string): (t: string)
    ensures key !in d ==> t == Dash
    ensures key in d && d[key].Str? ==> t == d[key].s
  {
    if key in d then d[key].Text() else Dash
  }

  /** `get("role", "user").capitalize()`; capitalising a non-text value raises. */
  function RoleTitle(d: Doc): (r: Option<string>)
    ensures "role" !in d ==> r == Some("User")
    ensures "role" in d ==> (r.Some? <==> d["role"].Str?)
    ensures "role" in d && d["role"].Str? ==> r == Some(Capitalize(d["role"].s))
    ensures "role" in d && r.Some? ==> |r.value| == |d["role"].s|
  {
    CapitalizeUser();
    match Get(d, "role", Str("user"))
    case Str(role) => Some(Capitalize(role))
    case _ => None
  }

  lemma CapitalizeUser()
    ensures Capitalize("user") == "User"
  {
    var r := Capitalize("user");
    assert r[0] == 'U' && r[1] == 's' && r[2] == 'e' && r[3] == 'r';
  }

  /** `get("address", {})`; reading a field of a non-map value raises. */
  function AddressOf(d: Doc): (r: Option<Doc>)
    ensures "address" !in d ==> r == Some(map[])
    ensures "address" in d ==> (r.Some? <==> d["address"].Fields?)
    ensures "address" in d && d["address"].Fields? ==> r == Some(d["address"].fields)
  {
    match Get(d, "address", Fields(map[]))
    case Fields(m) => Some(m)
    case _ => None
  }

  /** `get("bio", "")`: a null bio is as hidden as an empty one. */
  function BioText(d: Doc): (r: Option<string>)
    ensures "bio" !in d ==> r == Some("")
    ensures "bio" in d && d["bio"].Str? ==> r == Some(d["bio"].s)
    ensures "bio" in d && d["bio"].Null? ==> r == Some("")
    ensures "bio" in d ==> (r.None? <==> !d["bio"].Str? && !d["bio"].Null?)
  {
    match Get(d, "bio", Str(""))
    case Str(b) => Some(b)
    case Null => Some("")
    case _ => None
  }

  /** The card of one user document; `None` when one of the steps above
      raises, which fails the whole listing. */
  function ProjectCard(d: Doc): Option<Card> {
    var picture := Get(d, "profile_pic_url", Null);
    match (RoleTitle(d), AddressOf(d), Skills.ShowField(d), BioText(d))
    case (Some(role), Some(address), Some(skills), Some(bio)) =>
      Some(Card(
        name := DocName(d),
        picture := if picture.Truthy() then picture else Str(DefaultPicture),
        role := role,
        email := Field(d, "email"),
        position := Field(d, "position"),
        company := Field(d, "company"),
        phone := Field(d, "phone"),
        city := Field(address, "city"),
        country := Field(address, "country"),
        skills := skills,
        bio := bio))
    case _ => None
  }

  /** What a card shows: the stored picture when truthy, else the default
      (so `""` maps to the default); the trimmed full name; the capitalised
      role, "User" when missing; each text field as stored, the dash when
      missing but `""` when empty; city and country read from the address;
      the skills joined with ", "; the bio, `""` when missing or null. */
  lemma CardShape(d: Doc)
    ensures var c := ProjectCard(d);
      && (c.Some? <==> RoleTitle(d).Some? && AddressOf(d).Some? && Skills.ShowField(d).Some? && BioText(d).Some?)
      && (c.Some? ==> c.value.picture.Truthy())
      && (c.Some? && "profile_pic_url" in d && d["profile_pic_url"].Truthy() ==> c.value.picture == d["profile_pic_url"])
      && (c.Some? && !("profile_pic_url" in d && d["profile_pic_url"].Truthy()) ==> c.value.picture == Str(DefaultPicture))
      && (c.Some? ==> Trimmed(c.value.name))
      && (c.Some? ==> c.value.name == DocName(d))
      && (c.Some? ==> c.value.role == RoleTitle(d).value)
      && (c.Some? && "role" !in d ==> c.value.role == "User")
      && (c.Some? ==> c.value.email == Field(d, "email") && c.value.position == Field(d, "position"))
      && (c.Some? ==> c.value.company == Field(d, "company") && c.value.phone == Field(d, "phone"))
      && (c.Some? ==> c.value.city == Field(AddressOf(d).value, "city"))
      && (c.Some? ==> c.value.country == Field(AddressOf(d).value, "country"))
      && (c.Some? && "email" !in d ==> c.value.email == Dash)
      && (c.Some? && "email" in d && d["email"] == Str("") ==> c.value.email == "")
      && (c.Some? ==> c.value.skills == Skills.ShowField(d).value && c.value.bio == BioText(d).value)
  {
  }

  /** What the view shows: an error, the empty-directory notice, or the cards. */
  datatype Listing = LoadFailed | NoMembers | Cards(cards: seq<Card>)

  /** The card loop over any projection: one result per document, in
      order, or `None` as soon as one document cannot be projected. */
  method ProjectAll<D, C>(docs: seq<D>, project: D -> Option<C>) returns (r: Option<seq<C>>)
    ensures r.Some? <==> forall i | 0 <= i < |docs| :: project(docs[i]).Some?
    ensures r.Some? ==> |r.value| == |docs| && forall i | 0 <= i < |docs| :: project(docs[i]) == Some(r.value[i])
  {
    var results: seq<C> := [];
    var i := 0;
    while i < |docs|
      invariant 0 <= i <= |docs|
      invariant |results| == i
      invariant forall j | 0 <= j < i :: project(docs[j]) == Some(results[j])
    {
      var result := project(docs[i]);
      if result.None? {
        return None;
      }
      results := results + [result.value];
      i := i + 1;
    }
    return Some(results);
  }

  /** `show_members`: exactly one card per streamed document, in stream
      order; a stream failure or one document that cannot be projected
      fails the listing, and an empty collection shows the notice. */
  method ListMembers(docs: seq<Doc>, streamFails: bool) returns (listing: Listing)
    ensures listing == LoadFailed <==> streamFails || exists i | 0 <= i < |docs| :: ProjectCard(docs[i]).None?
    ensures listing == NoMembers <==> !streamFails && docs == []
    ensures listing.Cards? ==> |listing.cards| == |docs|
    ensures listing.Cards? ==> forall i | 0 <= i < |docs| :: ProjectCard(docs[i]) == Some(listing.cards[i])
  {
    if streamFails {
      return LoadFailed;
    }
    var cards := ProjectAll(docs, ProjectCard);
    if cards.None? {
      return LoadFailed;
    }
    if cards.value == [] {
      return NoMembers;
    }
    return Cards(cards.value);
  }

  /** The skills line appears exactly when the joined skills are non-empty. */
  function ShownSkills(c: Card): (line: Option<string>)
    ensures line.Some? <==> c.skills != ""
    ensures line.Some? ==> line.value == c.skills
  {
    if c.skills != "" then Some(c.skills) else None
  }

  /** The bio line: absent for an empty bio; otherwise its first 200
      characters, followed by "..." exactly when the bio is longer. */
  function ShownBio(bio: string): (line: Option<string>)
    ensures line.Some? <==> bio != ""
    ensures line.Some? ==> |line.value| <= BioLimit + 3
    ensures line.Some? && |bio| <= BioLimit ==> line.value == bio
    ensures line.Some? && |bio| > BioLimit ==> bio[..BioLimit] <= line.value && line.value[BioLimit..] == "..."
  {
    if bio == "" then None
    else if |bio| > BioLimit then Some(bio[..BioLimit] + "...")
    else Some(bio)
  }

  /** The shown bio is the bio itself exactly when it fits, or when it is
      already 200 characters followed by "...". */
  lemma ShownBioUnchangedIff(bio: string)
    requires bio != ""
    ensures ShownBio(bio) == Some(bio) <==>
      |bio| <= BioLimit || (|bio| == BioLimit + 3 && bio[BioLimit..] == "...")
  {
    if |bio| > BioLimit && |bio| == BioLimit + 3 && bio[BioLimit..] == "..." {
      assert bio == bio[..BioLimit] + bio[BioLimit..];
    }
  }
}

=== FILE: navigation.dfy ===
/**
 The session and page routing of app.py: the session holds whether the
 visitor is authenticated, the user handle and the current page; buttons
 change it, and every script run first forces the page into the set the
 authentication status allows.
 */
module Navigation {
  import opened Optional
  import opened Identity

  /** The value of `current_page`. `Other` stands for any other string. */
  datatype Page = Home | Announcements | Profile | Members | Login | SignUp | Other(name: string)

  function Name(p: Page): string {
    match p
    case Home => "Home"
    case Announcements => "Announcements"
    case Profile => "Profile"
    case Members => "Members"
    case Login => "Login"
    case SignUp => "SignUp"
    case Other(n) => n
  }

  function FromName(n: string): (p: Page)
    ensures Canonical(p)
  {
    if n == "Home" then Home
    else if n == "Announcements" then Announcements
    else if n == "Profile" then Profile
    else if n == "Members" then Members
    else if n == "Login" then Login
    else if n == "SignUp" then SignUp
    else Other(n)
  }

  /** `Other` never spells one of the six known page names. */
  predicate Canonical(p: Page) {
    p.Other? ==> p.name !in ["Home", "Announcements", "Profile", "Members", "Login", "SignUp"]
  }

  /** The page names and the page values correspond one to one. */
  lemma NameRoundTrip(n: string, p: Page)
    ensures Name(FromName(n)) == n
    ensures FromName(Name(p)) == p <==> Canonical(p)
  {
  }

  /** The page as `main` compares it: by its name, so an `Other` spelling
      a known page name is that page. */
  function Canon(p: Page): (q: Page)
    ensures Canonical(q) && Name(q) == Name(p)
    ensures Canonical(p) ==> q == p
  {
    NameRoundTrip(Name(p), p);
    FromName(Name(p))
  }

  datatype Session = Session(authenticated: bool, user: Option<Handle>, page: Page)

  /** The three session keys before defaulting; `None` is a missing key. */
  datatype StoredKeys = StoredKeys(page: Option<Page>, authenticated: Option<bool>, user: Option<Option<Handle>>)

  const Fresh := StoredKeys(None, None, None)

  /** The defaults of app.py, applied only to missing keys. When the home
      view's module body runs first (its first import in the process), it
      has already defaulted the page to Home. */
  function Initialise(keys: StoredKeys, homeImportRuns: bool): (s: Session)
    ensures keys.page.Some? ==> s.page == keys.page.value
    ensures keys.authenticated.Some? ==> s.authenticated == keys.authenticated.value
    ensures keys.user.Some? ==> s.user == keys.user.value
    ensures keys.page.None? ==> s.page == (if homeImportRuns then Home else Login)
    ensures keys.authenticated.None? ==> !s.authenticated
    ensures keys.user.None? ==> s.user.None?
  {
    var page := if keys.page.Some? then keys.page
                else if homeImportRuns then Some(Home) else None;
    Session(keys.authenticated.GetOr(false), keys.user.GetOr(None), page.GetOr(Login))
  }

  /** The sign-out button: whatever the prior state, the visitor is signed
      out and sent to the login page. */
  function Logout(s: Session): (r: Session)
    ensures !r.authenticated && r.user.None? && r.page == Login
  {
    Session(false, None, Login)
  }

  /** `navigate_to(page)`: only the current page changes. */
  function NavigateTo(s: Session, p: Page): (r: Session)
    ensures r.page == p
    ensures r.authenticated == s.authenticated && r.user == s.user
  {
    s.(page := p)
  }

  datatype SidebarButton = HomeButton | AnnouncementsButton | ProfileButton | MembersButton

  function Target(b: SidebarButton): Page {
    match b
    case HomeButton => Home
    case AnnouncementsButton => Announcements
    case ProfileButton => Profile
    case MembersButton => Members
  }

  /** A sidebar page button: a plain rerun when its page is already current,
      a navigation otherwise. Either way the page ends up as the button's
      and nothing else changes. */
  function PressSidebar(s: Session, b: SidebarButton): (r: Session)
    ensures r == s.(page := Target(b))
  {
    if s.page == Target(b) then s else NavigateTo(s, Target(b))
  }

  /** The pages `main` renders for the given authentication status. */
  predicate Allowed(authenticated: bool, p: Page) {
    var q := Canon(p);
    if authenticated then q.Home? || q.Announcements? || q.Profile? || q.Members?
    else q.Login? || q.SignUp?
  }

  datatype View = HomeView | AnnouncementsView | ProfileView | MembersView | LoginView | SignUpView

  /** The page each view belongs to. */
  function ViewPage(v: View): Page {
    match v
    case HomeView => Home
    case AnnouncementsView => Announcements
    case ProfileView => Profile
    case MembersView => Members
    case LoginView => Login
    case SignUpView => SignUp
  }

  /** What one run of `main` does with the current page. */
  datatype Route = Render(view: View) | Redirect(to: Page)

  /** The dispatch of `main`: a page allowed for the status is rendered;
      anything else is sent to Home when authenticated and to Login when not. */
  function Dispatch(s: Session): (r: Route)
    ensures r.Render? <==> Allowed(s.authenticated, s.page)
    ensures r.Render? ==> ViewPage(r.view) == Canon(s.page)
    ensures r.Redirect? ==> r.to == (if s.authenticated then Home else Login)
  {
    if s.authenticated then
      match Canon(s.page)
      case Home => Render(HomeView)
      case Announcements => Render(AnnouncementsView)
      case Profile => Render(ProfileView)
      case Members => Render(MembersView)
      case _ => Redirect(Home)
    else
      match Canon(s.page)
      case Login => Render(LoginView)
      case SignUp => Render(SignUpView)
      case _ => Redirect(Login)
  }

  /** `main` compares page names: two sessions whose pages spell the same
      name are routed alike. */
  lemma RouteByName(s: Session, t: Session)
    requires s.authenticated == t.authenticated && Name(s.page) == Name(t.page)
    ensures Dispatch(s) == Dispatch(t)
  {
  }

  /** The state after `main` has run, including the rerun a redirect forces. */
  function Normalise(s: Session): (r: Session)
    ensures Allowed(r.authenticated, r.page)
    ensures r.authenticated == s.authenticated && r.user == s.user
    ensures Allowed(s.authenticated, s.page) ==> r == s
    ensures !Allowed(s.authenticated, s.page) ==> r.page == (if s.authenticated then Home else Login)
  {
    match Dispatch(s)
    case Render(_) => s
    case Redirect(p) => s.(page := p)
  }

  /** Normalising twice is normalising once, and a normalised state is
      always rendered, never redirected again. */
  lemma NormaliseIdempotent(s: Session)
    ensures Normalise(Normalise(s)) == Normalise(s)
    ensures Dispatch(Normalise(s)).Render?
  {
  }

  /** Normalisation leaves a state alone exactly when its page is allowed. */
  lemma NormaliseFixpoints(s: Session)
    ensures Normalise(s) == s <==> Allowed(s.authenticated, s.page)
  {
  }

  /** A first visit starts signed out on the login page, whether or not the
      home view's import defaulted the page to Home first. */
  lemma FreshSessionStartsAtLogin(homeImportRuns: bool)
    ensures Normalise(Initialise(Fresh, homeImportRuns)) == Session(false, None, Login)
  {
  }

  /** The user actions that change or keep the session. `SignedIn` is a
      successful login, `ToLogin` the two ways out of the signup page. */
  datatype Event =
    | Sidebar(button: SidebarButton)
    | LogoutPressed
    | SignedIn(handle: Handle)
    | ToSignUp
    | ToLogin
    | Unchanged

  /** Which events the rendered page offers: the sidebar only to a signed-in
      visitor, the login and signup buttons only on their pages. */
  predicate Enabled(s: Session, e: Event) {
    match e
    case Sidebar(_) => s.authenticated
    case LogoutPressed => s.authenticated
    case SignedIn(_) => !s.authenticated && Canon(s.page) == Login
    case ToSignUp => !s.authenticated && Canon(s.page) == Login
    case ToLogin => !s.authenticated && Canon(s.page) == SignUp
    case Unchanged => true
  }

  function Apply(s: Session, e: Event): (r: Session)
    ensures e.Sidebar? ==> r == s.(page := Target(e.button))
    ensures e.LogoutPressed? ==> r == Session(false, None, Login)
    ensures e.SignedIn? ==> r == s.(authenticated := true, user := Some(e.handle))
    ensures e.ToSignUp? ==> r == s.(page := SignUp)
    ensures e.ToLogin? ==> r == s.(page := Login)
    ensures e.Unchanged? ==> r == s
  {
    match e
    case Sidebar(b) => PressSidebar(s, b)
    case LogoutPressed => Logout(s)
    case SignedIn(h) => s.(user := Some(h), authenticated := true)
    case ToSignUp => s.(page := SignUp)
    case ToLogin => s.(page := Login)
    case Unchanged => s
  }

  /** One interaction: the normalised page is shown, the visitor uses one of
      its buttons (an event it does not offer changes nothing), and the
      following run normalises again. */
  function React(s: Session, e: Event): (r: Session)
    ensures Allowed(r.authenticated, r.page)
  {
    var shown := Normalise(s);
    Normalise(if Enabled(shown, e) then Apply(shown, e) else shown)
  }

  function Run(s: Session, events: seq<Event>): Session
    decreases |events|
  {
    if events == [] then Normalise(s) else Run(React(s, events[0]), events[1..])
  }

  /** Signed in exactly when a user handle is held. */
  predicate Consistent(s: Session) {
    s.authenticated <==> s.user.Some?
  }

  /** Every state reachable from the defaults holds a handle exactly when
      signed in, and sits on a page its status allows. */
  lemma {:induction false} RunInvariant(s: Session, events: seq<Event>)
    requires Consistent(s)
    ensures Consistent(Run(s, events))
    ensures Allowed(Run(s, events).authenticated, Run(s, events).page)
    decreases |events|
  {
    if events != [] {
      var shown := Normalise(s);
      var e := events[0];
      if Enabled(shown, e) {
        assert Consistent(Apply(shown, e));
      }
      RunInvariant(React(s, e), events[1..]);
    }
  }

  lemma FreshSessionConsistent(homeImportRuns: bool)
    ensures Consistent(Initialise(Fresh, homeImportRuns))
  {
  }

  /** A successful login leaves the page at Login; the following run then
      moves the now signed-in visitor to Home. */
  lemma SignInLandsHome(s: Session, h: Handle)
    requires Enabled(s, SignedIn(h))
    ensures Apply(s, SignedIn(h)).page == s.page
    ensures Normalise(Apply(s, SignedIn(h))) == Session(true, Some(h), Home)
  {
  }

  /** On a signed-in page the sign-out button signs out and lands on Login. */
  lemma LogoutEvent(s: Session)
    requires s.authenticated
    ensures React(s, LogoutPressed) == Session(false, None, Login)
  {
  }

  /** On a signed-in page a sidebar button moves to its page and changes
      nothing else. */
  lemma SidebarEvent(s: Session, b: SidebarButton)
    requires s.authenticated
    ensures React(s, Sidebar(b)) == Normalise(s).(page := Target(b))
  {
  }

  /** An event the shown page does not offer leaves the shown state. */
  lemma DisabledEventIgnored(s: Session, e: Event)
    requires !Enabled(Normalise(s), e)
    ensures React(s, e) == Normalise(s)
  {
  }

  /** After a logout the next run shows the login page. */
  lemma LogoutShowsLogin(s: Session)
    ensures Dispatch(Logout(s)) == Render(LoginView)
  {
  }
}

=== FILE: optional.dfy ===
/** Python's `None`-or-value, used for absent attributes and optional results. */
module Optional {

  datatype Option<+T> = None | Some(value: T) {

    /** The value, or `default` when absent (Python's `getattr(x, name, default)`). */
    function GetOr(default: T): (r: T)
      ensures Some? ==> r == value
      ensures None? ==> r == default
    {
      match this
      case Some(v) => v
      case None => default
    }
  }
}

=== FILE: profile.dfy ===
/**
 The profile view: load the signed-in user's document, show its picture,
 and on save merge the edited fields into the document, replacing the
 picture when a new one is uploaded.
 */
module Profile {
  import opened Optional
  import opened Text
  import opened Store
  import opened Users
  import Skills

  /** `get_user_data`, with the view's own fallback: a missing document and
      a failed read both give the empty record. */
  function UserData(users: Collection, uid: string, fault: bool): (d: Doc)
    ensures !fault && uid in users ==> d == users[uid]
    ensures fault || uid !in users ==> d == map[]
  {
    if !fault && uid in users then users[uid] else map[]
  }

  /** The picture shown: the stored value whenever the key is present (an
      empty or null value included), the placeholder avatar only when the key
      is absent. */
  function CurrentPicture(data: Doc): (v: Value)
    ensures "profile_pic_url" in data ==> v == data["profile_pic_url"]
    ensures "profile_pic_url" !in data ==> v == Str(AvatarPlaceholder)
  {
    Get(data, "profile_pic_url", Str(AvatarPlaceholder))
  }

  /** The old blob name as the view computes it from the current picture
      URL: the text after the last "/", cut at the first "?". */
  function OldBlobName(url: string): (name: string)
    ensures '/' !in name && '?' !in name
  {
    BeforeFirst(AfterLast(url, '/'), '?')
  }

  /** The name extracted above contains no "/", so it is never a picture key
      of the kind the views create. */
  lemma OldBlobNameIsNeverAKey(url: string, uid: string, token: string)
    ensures OldBlobName(url) != PictureKey(uid, token)
  {
    assert PictureKey(uid, token)[12] == '/';
  }

  /** The shape of a signed object URL: a base, the object key as the path,
      and the signature query after "?". */
  function SignedUrl(base: string, key: string, query: string): string {
    base + "/" + key + "?" + query
  }

  /** Applied to the signed URL of a stored picture, the view's extraction
      yields the key without its folder, so the stored blob is never found
      and never deleted. */
  lemma {:induction false} AsWrittenMissesStoredKey(base: string, uid: string, token: string, query: string)
    requires '/' !in uid && '/' !in token && '/' !in query
    requires '?' !in uid && '?' !in token
    ensures OldBlobName(SignedUrl(base, PictureKey(uid, token), query)) == uid + "_" + token
    ensures OldBlobName(SignedUrl(base, PictureKey(uid, token), query)) != PictureKey(uid, token)
  {
    var name := uid + "_" + token;
    var url := SignedUrl(base, PictureKey(uid, token), query);
    var tail := name + "?" + query;
    assert url == base + "/profile_pics/" + tail;
    assert url[|url| - |tail|..] == tail;
    assert url[|url| - |tail| - 1] == '/';
    AfterLastUnique(url, '/', tail);
    assert tail[..|name|] == name;
    assert tail[|name|] == '?';
    BeforeFirstUnique(tail, '?', name);
    OldBlobNameIsNeverAKey(url, uid, token);
  }

  /** The key the deletion evidently means: the extracted name back under
      the picture folder. */
  function OldBlobKey(url: string): (key: string)
    ensures "profile_pics/" <= key
    ensures key[|"profile_pics/"|..] == OldBlobName(url)
  {
    "profile_pics/" + OldBlobName(url)
  }

  /** The corrected extraction recovers the stored key from its signed URL. */
  lemma {:induction false} CorrectedFindsStoredKey(base: string, uid: string, token: string, query: string)
    requires '/' !in uid && '/' !in token && '/' !in query
    requires '?' !in uid && '?' !in token
    ensures OldBlobKey(SignedUrl(base, PictureKey(uid, token), query)) == PictureKey(uid, token)
  {
    AsWrittenMissesStoredKey(base, uid, token, query);
  }

  /** The old picture is deleted only when the current URL is a non-empty
      text mentioning "profile_pics". */
  predicate MayDelete(picture: Value) {
    picture.Str? && picture.s != "" && Contains(picture.s, "profile_pics")
  }

  /** The fields a save writes: the profile fields with the session e-mail
      and the picture value, stamped with the save time. */
  function ProfileUpdate(email: string, f: ProfileFields, picture: Value, now: int): (d: Doc)
    ensures "last_updated" in d && "email" in d && "profile_pic_url" in d && "skills" in d
    ensures d["last_updated"] == Stamp(now)
    ensures d["email"] == Str(email) && d["profile_pic_url"] == picture
    ensures d["skills"] == Skills.Stored(Skills.Parse(f.skills))
    ensures "role" !in d && "created_at" !in d
    ensures var p := ProfileDoc(email, f, picture);
      d.Keys == p.Keys + {"last_updated"} && forall k | k in p :: d[k] == p[k]
  {
    ProfileDoc(email, f, picture)["last_updated" := Stamp(now)]
  }

  /** The best-effort deletion of the old picture as the view performs it:
      attempted only when `MayDelete` holds, it removes the blob named by
      the extracted `OldBlobName`; a failed attempt, or a name with no blob,
      leaves the blobs as they were. Since that name has no "/", no blob
      under the picture folder is ever removed. */
  function DeleteOld(blobs: set<string>, picture: Value, deleteFails: bool): (r: set<string>)
    ensures r <= blobs
    ensures !MayDelete(picture) || deleteFails ==> r == blobs
    ensures MayDelete(picture) && !deleteFails ==> OldBlobName(picture.s) !in r && blobs - r <= {OldBlobName(picture.s)}
    ensures forall k | k in blobs && "profile_pics/" <= k :: k in r
  {
    if MayDelete(picture) && !deleteFails then
      FolderKeysKept(blobs, OldBlobName(picture.s));
      blobs - {OldBlobName(picture.s)}
    else blobs
  }

  /** Removing a name without "/" keeps every key under the picture folder. */
  lemma FolderKeysKept(blobs: set<string>, name: string)
    requires '/' !in name
    ensures forall k | k in blobs && "profile_pics/" <= k :: k in blobs - {name}
  {
    forall k | k in blobs && "profile_pics/" <= k
      ensures k != name
    {
      assert k[12] == '/';
    }
  }

  /** The deletion as evidently intended: the blob under the recovered key
      `OldBlobKey`. */
  function DeleteOldCorrected(blobs: set<string>, picture: Value, deleteFails: bool): (r: set<string>)
    ensures r <= blobs
    ensures !MayDelete(picture) || deleteFails ==> r == blobs
    ensures MayDelete(picture) && !deleteFails ==> OldBlobKey(picture.s) !in r && blobs - r <= {OldBlobKey(picture.s)}
  {
    if MayDelete(picture) && !deleteFails then blobs - {OldBlobKey(picture.s)} else blobs
  }

  /** Which save step, if any, raises. A failed delete is swallowed. */
  datatype SaveFaults = SaveFaults(deleteFails: bool, uploadFails: bool, writeFails: bool)

  datatype SaveOutcome = SaveOutcome(users: Collection, blobs: set<string>, saved: bool)

  /** The picture value a save writes: the new signed URL after an upload,
      the displayed value otherwise. */
  function SavedPicture(data: Doc, newPicture: bool, signedUrl: string): Value {
    if newPicture then Str(signedUrl) else CurrentPicture(data)
  }

  /** "Save Profile" as the view performs it. `data` is the record the
      page loaded, `email` the session's (the e-mail input is disabled),
      `token` the fresh key suffix, `signedUrl` the URL signed for the
      upload, `now` the clock. With a new picture the old blob is deleted
      first (best effort, through `DeleteOld`) and the new one uploaded;
      then the fields are merged into the document. */
  function SaveProfile(users: Collection, blobs: set<string>, uid: string, email: string, data: Doc,
                       password: string, f: ProfileFields, newPicture: bool,
                       token: string, signedUrl: string, now: int, faults: SaveFaults): (r: SaveOutcome)
    ensures r.saved <==> !faults.writeFails && !(newPicture && faults.uploadFails)
    ensures r.saved ==> r.users == MergeDoc(users, uid, ProfileUpdate(email, f, SavedPicture(data, newPicture, signedUrl), now))
    ensures !r.saved ==> r.users == users
    ensures !newPicture ==> r.blobs == blobs
  {
    var afterDelete := if newPicture then DeleteOld(blobs, CurrentPicture(data), faults.deleteFails) else blobs;
    FinishSave(users, afterDelete, uid, email, data, f, newPicture, token, signedUrl, now, faults)
  }

  /** "Save Profile" with the corrected deletion `DeleteOldCorrected`. */
  function SaveProfileCorrected(users: Collection, blobs: set<string>, uid: string, email: string, data: Doc,
                                password: string, f: ProfileFields, newPicture: bool,
                                token: string, signedUrl: string, now: int, faults: SaveFaults): (r: SaveOutcome)
    ensures r.saved <==> !faults.writeFails && !(newPicture && faults.uploadFails)
    ensures r.saved ==> r.users == MergeDoc(users, uid, ProfileUpdate(email, f, SavedPicture(data, newPicture, signedUrl), now))
    ensures !r.saved ==> r.users == users
    ensures !newPicture ==> r.blobs == blobs
  {
    var afterDelete := if newPicture then DeleteOldCorrected(blobs, CurrentPicture(data), faults.deleteFails) else blobs;
    FinishSave(users, afterDelete, uid, email, data, f, newPicture, token, signedUrl, now, faults)
  }

  /** The save after the deletion step: the upload, then the merge. */
  function FinishSave(users: Collection, afterDelete: set<string>, uid: string, email: string, data: Doc,
                      f: ProfileFields, newPicture: bool,
                      token: string, signedUrl: string, now: int, faults: SaveFaults): (r: SaveOutcome)
    ensures r.saved <==> !faults.writeFails && !(newPicture && faults.uploadFails)
    ensures r.saved ==> r.users == MergeDoc(users, uid, ProfileUpdate(email, f, SavedPicture(data, newPicture, signedUrl), now))
    ensures !r.saved ==> r.users == users
    ensures r.blobs == if newPicture && !faults.uploadFails then afterDelete + {PictureKey(uid, token)} else afterDelete
  {
    if newPicture && faults.uploadFails then SaveOutcome(users, afterDelete, false)
    else
      var stored := if newPicture then afterDelete + {PictureKey(uid, token)} else afterDelete;
      var update := ProfileUpdate(email, f, SavedPicture(data, newPicture, signedUrl), now);
      if faults.writeFails then SaveOutcome(users, stored, false)
      else SaveOutcome(MergeDoc(users, uid, update), stored, true)
  }

  /** The blob side of a save with a new picture, as written: the new key
      is added once the upload succeeds; the only blob that can disappear is
      the one named by the extracted name, and every blob already under the
      picture folder (the old picture among them) survives the save. */
  lemma SaveBlobs(users: Collection, blobs: set<string>, uid: string, email: string, data: Doc,
                  password: string, f: ProfileFields, token: string, signedUrl: string, now: int, faults: SaveFaults)
    ensures var r := SaveProfile(users, blobs, uid, email, data, password, f, true, token, signedUrl, now, faults);
      && r.blobs <= blobs + {PictureKey(uid, token)}
      && (!faults.uploadFails ==> PictureKey(uid, token) in r.blobs)
      && (!MayDelete(CurrentPicture(data)) || faults.deleteFails ==> blobs <= r.blobs)
      && (MayDelete(CurrentPicture(data)) && !faults.deleteFails
          ==> blobs - r.blobs <= {OldBlobName(CurrentPicture(data).s)})
      && (forall k | k in blobs && "profile_pics/" <= k :: k in r.blobs)
  {
    var r := SaveProfile(users, blobs, uid, email, data, password, f, true, token, signedUrl, now, faults);
    var afterDelete := DeleteOld(blobs, CurrentPicture(data), faults.deleteFails);
    assert r.blobs == if faults.uploadFails then afterDelete else afterDelete + {PictureKey(uid, token)};
  }

  /** The blob side of the corrected save: the same, except that the old
      picture's key is removed whenever the deletion is attempted and does
      not fail (and is not the key just uploaded). */
  lemma SaveBlobsCorrected(users: Collection, blobs: set<string>, uid: string, email: string, data: Doc,
                           password: string, f: ProfileFields, token: string, signedUrl: string, now: int,
                           faults: SaveFaults)
    ensures var r := SaveProfileCorrected(users, blobs, uid, email, data, password, f, true, token, signedUrl, now, faults);
      && r.blobs <= blobs + {PictureKey(uid, token)}
      && (!faults.uploadFails ==> PictureKey(uid, token) in r.blobs)
      && (!MayDelete(CurrentPicture(data)) || faults.deleteFails ==> blobs <= r.blobs)
      && (MayDelete(CurrentPicture(data)) && !faults.deleteFails
          && OldBlobKey(CurrentPicture(data).s) != PictureKey(uid, token)
          ==> OldBlobKey(CurrentPicture(data).s) !in r.blobs)
  {
    var r := SaveProfileCorrected(users, blobs, uid, email, data, password, f, true, token, signedUrl, now, faults);
    var afterDelete := DeleteOldCorrected(blobs, CurrentPicture(data), faults.deleteFails);
    assert r.blobs == if faults.uploadFails then afterDelete else afterDelete + {PictureKey(uid, token)};
  }

  /** The correction touches only the blobs: both saves report the same
      outcome and write the same user documents. */
  lemma SaveVariantsAgree(users: Collection, blobs: set<string>, uid: string, email: string, data: Doc,
                          password: string, f: ProfileFields, newPicture: bool,
                          token: string, signedUrl: string, now: int, faults: SaveFaults)
    ensures var a := SaveProfile(users, blobs, uid, email, data, password, f, newPicture, token, signedUrl, now, faults);
      var c := SaveProfileCorrected(users, blobs, uid, email, data, password, f, newPicture, token, signedUrl, now, faults);
      a.saved == c.saved && a.users == c.users
  {
  }

  /** A successful save keeps every field it does not write (the role and
      the creation time among them), writes the session e-mail, keeps the
      picture value when nothing was uploaded (a map there would be merged
      instead), and touches no other user. */
  lemma {:induction false} SaveIsMerge(users: Collection, blobs: set<string>, uid: string, email: string, data: Doc,
                                       password: string, f: ProfileFields, newPicture: bool,
                                       token: string, signedUrl: string, now: int, faults: SaveFaults)
    requires !faults.writeFails && !(newPicture && faults.uploadFails)
    ensures var r := SaveProfile(users, blobs, uid, email, data, password, f, newPicture, token, signedUrl, now, faults);
      && uid in r.users
      && r.users[uid]["email"] == Str(email)
      && (!newPicture && !CurrentPicture(data).Fields? ==> r.users[uid]["profile_pic_url"] == CurrentPicture(data))
      && (uid in users && "role" in users[uid] ==> r.users[uid]["role"] == users[uid]["role"])
      && (uid in users && "created_at" in users[uid] ==> r.users[uid]["created_at"] == users[uid]["created_at"])
      && (forall other | other in users && other != uid :: r.users[other] == users[other])
  {
    var update := ProfileUpdate(email, f, SavedPicture(data, newPicture, signedUrl), now);
    var r := SaveProfile(users, blobs, uid, email, data, password, f, newPicture, token, signedUrl, now, faults);
    assert r.users == MergeDoc(users, uid, update);
    assert !update["email"].Fields?;
    assert !newPicture ==> update["profile_pic_url"] == CurrentPicture(data);
  }

  /** The password input has no effect on the save. */
  lemma PasswordIgnored(users: Collection, blobs: set<string>, uid: string, email: string, data: Doc,
                        p1: string, p2: string, f: ProfileFields, newPicture: bool,
                        token: string, signedUrl: string, now: int, faults: SaveFaults)
    ensures SaveProfile(users, blobs, uid, email, data, p1, f, newPicture, token, signedUrl, now, faults)
         == SaveProfile(users, blobs, uid, email, data, p2, f, newPicture, token, signedUrl, now, faults)
  {
  }

  /** Saving with the skills input left as loaded writes the stored list
      back unchanged, as long as its entries are ones the parser produces
      and it is not the single empty skill. */
  lemma {:induction false} UneditedSkillsSurviveSave(users: Collection, blobs: set<string>, uid: string, email: string,
                                                     data: Doc, password: string, f: ProfileFields, newPicture: bool,
                                                     token: string, signedUrl: string, now: int, faults: SaveFaults,
                                                     skills: seq<string>)
    requires "skills" in data && data["skills"] == Skills.Stored(skills)
    requires Skills.Clean(skills) && skills != [""]
    requires Skills.ShowField(data) == Some(f.skills)
    requires !faults.writeFails && !(newPicture && faults.uploadFails)
    ensures SaveProfile(users, blobs, uid, email, data, password, f, newPicture, token, signedUrl, now, faults)
              .users[uid]["skills"] == Skills.Stored(skills)
  {
    assert f.skills == Skills.Show(skills);
    Skills.ParseShow(skills);
    var update := ProfileUpdate(email, f, SavedPicture(data, newPicture, signedUrl), now);
    assert update["skills"] == Skills.Stored(skills);
  }
}

=== FILE: signup.dfy ===
/**
 The signup view: create the account, optionally upload a picture, write
 the user document, then send the visitor to the login page. Each of the
 three steps may fail; a failure stops the sequence without undoing the
 steps already taken.
 */
module Signup {
  import opened Optional
  import opened Store
  import opened Identity
  import opened Users
  import opened Navigation
  import Skills
  import Members

  datatype SignupForm = SignupForm(email: string, password: string, fields: ProfileFields)

  /** Which step, if any, raises. */
  datatype Fault = NoFault | CreateFails | UploadFails | WriteFails

  /** Whether the fault is met: the upload step runs only with a picture. */
  predicate Strikes(fault: Fault, picture: bool) {
    fault == CreateFails || fault == WriteFails || (picture && fault == UploadFails)
  }

  /** The external state the view touches: provider accounts, the users
      collection and the keys of the stored picture blobs. */
  datatype World = World(accounts: Accounts, users: Collection, blobs: set<string>)

  datatype Outcome = Outcome(session: Session, world: World, created: bool)

  /** The new user document: the shared profile fields plus the creation
      time and the "user" role. */
  function SignupDoc(form: SignupForm, pictureUrl: string, now: int): (d: Doc)
    ensures "role" in d && "created_at" in d && "email" in d && "profile_pic_url" in d && "address" in d && "skills" in d
    ensures d["role"] == Str("user") && d["created_at"] == Stamp(now)
    ensures d["email"] == Str(form.email) && d["profile_pic_url"] == Str(pictureUrl)
    ensures d["address"] == AddressValue(form.fields.address)
    ensures d["skills"] == Skills.Stored(Skills.Parse(form.fields.skills))
    ensures var p := ProfileDoc(form.email, form.fields, Str(pictureUrl));
      d.Keys == p.Keys + {"created_at", "role"} && forall k | k in p :: d[k] == p[k]
  {
    ProfileDoc(form.email, form.fields, Str(pictureUrl))["created_at" := Stamp(now)]["role" := Str("user")]
  }

  /** "Create Account". `uid` is the id the provider assigns, `token` the
      random suffix of the picture key, `signedUrl` the URL the object store
      signs for it and `now` the clock. */
  function SubmitSignup(s: Session, w: World, form: SignupForm, picture: bool,
                        uid: string, token: string, signedUrl: string, now: int, fault: Fault): (r: Outcome)
    ensures r.created <==> !Strikes(fault, picture) && form.email !in w.accounts
    ensures r.created ==> r.session == s.(page := Login)
    ensures !r.created ==> r.session == s
    ensures r.created ==> r.world.users == w.users[uid := SignupDoc(form, if picture then signedUrl else "", now)]
    ensures !r.created ==> r.world.users == w.users
    ensures picture && r.created ==> r.world.blobs == w.blobs + {PictureKey(uid, token)}
    ensures !picture ==> r.world.blobs == w.blobs
    ensures fault != CreateFails && form.email !in w.accounts ==>
      r.world.accounts == w.accounts[form.email := NewHandle(form.email, uid)]
    ensures (fault == CreateFails || form.email in w.accounts) ==> r.world == w
  {
    match CreateAccount(w.accounts, form.email, uid, fault == CreateFails)
    case None => Outcome(s, w, false)
    case Some(accounts) =>
      if picture && fault == UploadFails then Outcome(s, w.(accounts := accounts), false)
      else
        var blobs := if picture then w.blobs + {PictureKey(uid, token)} else w.blobs;
        var url := if picture then signedUrl else "";
        if fault == WriteFails then Outcome(s, World(accounts, w.users, blobs), false)
        else Outcome(s.(page := Login), World(accounts, w.users[uid := SignupDoc(form, url, now)], blobs), true)
  }

  /** A step failing after the account was created leaves the account in
      place but no user document for it. */
  lemma NoRollback(s: Session, w: World, form: SignupForm, picture: bool,
                   uid: string, token: string, signedUrl: string, now: int, fault: Fault)
    requires form.email !in w.accounts && uid !in w.users
    requires fault == WriteFails || (picture && fault == UploadFails)
    ensures var r := SubmitSignup(s, w, form, picture, uid, token, signedUrl, now, fault);
      !r.created && form.email in r.world.accounts && uid !in r.world.users
  {
  }

  /** Without an uploaded picture the document's picture URL is empty; the
      signup write replaces any document already stored under the uid. */
  lemma CreatedDocument(s: Session, w: World, form: SignupForm, picture: bool,
                        uid: string, token: string, signedUrl: string, now: int)
    requires form.email !in w.accounts
    ensures var r := SubmitSignup(s, w, form, picture, uid, token, signedUrl, now, NoFault);
      && r.world.users[uid]["role"] == Str("user")
      && (!picture ==> r.world.users[uid]["profile_pic_url"] == Str(""))
      && r.world.users[uid]["address"] == AddressValue(form.fields.address)
      && forall other | other in w.users && other != uid :: r.world.users[other] == w.users[other]
  {
    var r := SubmitSignup(s, w, form, picture, uid, token, signedUrl, now, NoFault);
    var d := SignupDoc(form, if picture then signedUrl else "", now);
    assert r.world.users[uid] == d;
  }

  /** The member card of a freshly created document shows the form back:
      the trimmed full name, the uploaded picture or the default one, the
      role "User", the e-mail and the text fields as typed, the city and
      country of the address, the parsed skills joined again, and the bio. */
  lemma SignupCard(form: SignupForm, pictureUrl: string, now: int)
    ensures ShowsForm(Members.ProjectCard(SignupDoc(form, pictureUrl, now)), form, pictureUrl)
  {
    var d := SignupDoc(form, pictureUrl, now);
    SignupDocValues(form, pictureUrl, now);
    CardOfValues(d, form, pictureUrl);
  }

  /** A card showing exactly what the signup form was filled in with. */
  ghost predicate ShowsForm(c: Option<Members.Card>, form: SignupForm, pictureUrl: string) {
    var f := form.fields;
    && c.Some?
    && c.value.name == FullName(f.firstName, f.lastName)
    && c.value.picture == (if pictureUrl != "" then Str(pictureUrl) else Str(Members.DefaultPicture))
    && c.value.role == "User"
    && c.value.email == form.email
    && c.value.position == f.position && c.value.company == f.company && c.value.phone == f.phone
    && c.value.city == f.address.city && c.value.country == f.address.country
    && c.value.skills == Skills.Show(Skills.Parse(f.skills))
    && c.value.bio == f.bio
  }

  /** The fields of the signup document the member card reads. */
  ghost predicate HoldsForm(d: Doc, form: SignupForm, pictureUrl: string) {
    var f := form.fields;
    && "first_name" in d && d["first_name"] == Str(f.firstName)
    && "last_name" in d && d["last_name"] == Str(f.lastName)
    && "email" in d && d["email"] == Str(form.email)
    && "position" in d && d["position"] == Str(f.position)
    && "company" in d && d["company"] == Str(f.company)
    && "phone" in d && d["phone"] == Str(f.phone)
    && "bio" in d && d["bio"] == Str(f.bio)
    && "role" in d && d["role"] == Str("user")
    && "profile_pic_url" in d && d["profile_pic_url"] == Str(pictureUrl)
    && "address" in d && d["address"] == AddressValue(f.address)
    && "skills" in d && d["skills"] == Skills.Stored(Skills.Parse(f.skills))
  }

  lemma SignupDocValues(form: SignupForm, pictureUrl: string, now: int)
    ensures HoldsForm(SignupDoc(form, pictureUrl, now), form, pictureUrl)
  {
    ProfileDocValues(form.email, form.fields, Str(pictureUrl));
    ProfileDocKeys(form.email, form.fields, Str(pictureUrl));
  }

  lemma CardOfValues(d: Doc, form: SignupForm, pictureUrl: string)
    requires HoldsForm(d, form, pictureUrl)
    ensures ShowsForm(Members.ProjectCard(d), form, pictureUrl)
  {
    AddressFields(form.fields.address);
    Members.CapitalizeUser();
    assert Skills.ShowField(d) == Some(Skills.Show(Skills.Parse(form.fields.skills)));
    Members.CardShape(d);
  }

  /** "Already have an account?" changes only the page. */
  function BackToLogin(s: Session): (r: Session)
    ensures r == s.(page := Login)
  {
    NavigateTo(s, Login)
  }

  /** Both ways out of the signup page are the navigation model's `ToLogin`
      event; a failed signup is `Unchanged`. */
  lemma SignupIsEvent(s: Session, w: World, form: SignupForm, picture: bool,
                      uid: string, token: string, signedUrl: string, now: int, fault: Fault)
    ensures var r := SubmitSignup(s, w, form, picture, uid, token, signedUrl, now, fault);
      r.session == Apply(s, if r.created then ToLogin else Unchanged)
    ensures BackToLogin(s) == Apply(s, ToLogin)
  {
  }
}

=== FILE: skills.dfy ===
/**
 The skills field: a comma-separated text input stored as a list of
 trimmed strings, and shown again joined with ", ".
 */
module Skills {
  import opened Optional
  import opened Text
  import opened Store

  /** `[s.strip() for s in text.split(',')] if text else []`: empty input
      gives no skills; otherwise one trimmed, comma-free piece per comma plus
      one, empty pieces kept. */
  function Parse(text: string): (r: seq<string>)
    ensures text == "" ==> r == []
    ensures text != "" ==> |r| == Count(text, ',') + 1
    ensures forall k | 0 <= k < |r| :: Trimmed(r[k]) && ',' !in r[k]
    ensures text != "" ==> |r| == |Split(text, ',')| && forall k | 0 <= k < |r| :: r[k] == Strip(Split(text, ',')[k])
  {
    if text == "" then []
    else
      var parts := Split(text, ',');
      seq(|parts|, k requires 0 <= k < |parts| => StripNoComma(parts[k]))
  }

  /** A text splitting into three pieces parses to their three strips. */
  lemma ParseThree(text: string, a: string, b: string, c: string)
    requires Split(text, ',') == [a, b, c]
    ensures Parse(text) == [Strip(a), Strip(b), Strip(c)]
  {
    assert text != "";
    var r := Parse(text);
    assert |r| == 3;
    assert r[0] == Strip(a) && r[1] == Strip(b) && r[2] == Strip(c);
    ThreeElements(r, Strip(a), Strip(b), Strip(c));
  }

  lemma ThreeElements<T>(r: seq<T>, x: T, y: T, z: T)
    requires |r| == 3 && r[0] == x && r[1] == y && r[2] == z
    ensures r == [x, y, z]
  {
  }

  lemma SplitThree(a: string, b: string, c: string)
    requires ',' !in a && ',' !in b && ',' !in c
    ensures Split(a + [','] + (b + [','] + c), ',') == [a, b, c]
  {
    SplitNoSeparator(c, ',');
    SplitPiece(b, c, ',');
    SplitPiece(a, b + [','] + c, ',');
  }

  /** The form's own example: blanks around each piece are dropped. */
  lemma ParseExample()
    ensures Parse("a, b ,c") == ["a", "b", "c"]
  {
    StripExample();
    NoCommaExample();
    var text := "a, b ,c";
    ExampleText('a', 'b', 'c');
    SplitThree("a", " b ", "c");
    ParseThree(text, "a", " b ", "c");
  }

  lemma StripExample()
    ensures Strip("a") == "a" && Strip("c") == "c" && Strip(" b ") == "b"
  {
    assert !IsSpace('a') && !IsSpace('b') && !IsSpace('c');
    StripLetter('a');
    StripLetter('c');
    StripPadded('b');
  }

  lemma ExampleText(x: char, y: char, z: char)
    ensures [x] + [','] + ([' ', y, ' '] + [','] + [z]) == [x, ',', ' ', y, ' ', ',', z]
  {
  }

  lemma NoCommaExample()
    ensures ',' !in "a" && ',' !in " b " && ',' !in "c"
  {
    assert forall k | 0 <= k < 3 :: " b "[k] != ',';
  }

  lemma StripLetter(x: char)
    requires !IsSpace(x)
    ensures Strip([x]) == [x]
  {
    StripTrimmed([x]);
  }

  lemma StripPadded(x: char)
    requires !IsSpace(x)
    ensures Strip([' ', x, ' ']) == [x]
  {
    assert StripLeft([' ', x, ' ']) == [x, ' '] by {
      assert [' ', x, ' '][1..] == [x, ' '];
    }
    assert StripRight([x, ' ']) == [x] by {
      assert [x, ' '][..1] == [x];
    }
  }

  function StripNoComma(s: string): (r: string)
    requires ',' !in s
    ensures r == Strip(s) && ',' !in r
  {
    var r := Strip(s);
    assert forall k | 0 <= k < |r| :: r[k] in s;
    r
  }

  /** `", ".join(skills)`. */
  function Show(skills: seq<string>): string {
    Join(skills, ", ")
  }

  /** The stored form: a list of string values. */
  function Stored(skills: seq<string>): (v: Value)
    ensures v.List? && |v.items| == |skills|
    ensures forall k | 0 <= k < |skills| :: v.items[k] == Str(skills[k])
  {
    List(seq(|skills|, k requires 0 <= k < |skills| => Str(skills[k])))
  }

  /** `", ".join(v)` on a stored value: a list of strings is joined, a
      string is joined character by character, anything else raises. */
  function ShowStored(v: Value): (r: Option<string>)
    ensures forall l: seq<string> | v == Stored(l) :: r == Some(Show(l))
    ensures v.List? ==> (r.Some? <==> forall k | 0 <= k < |v.items| :: v.items[k].Str?)
    ensures v.Str? ==> r == Some(Join(Letters(v.s), ", "))
    ensures !v.List? && !v.Str? ==> r.None?
  {
    match v
    case List(items) =>
      (match Texts(items)
       case Some(texts) =>
         assert forall l: seq<string> | v == Stored(l) :: texts == l;
         Some(Show(texts))
       case None => None)
    case Str(s) => Some(Join(Letters(s), ", "))
    case _ => None
  }

  /** `", ".join(doc.get("skills", []))`: a document without skills shows "". */
  function ShowField(d: Doc): (r: Option<string>)
    ensures "skills" !in d ==> r == Some("")
    ensures "skills" in d ==> r == ShowStored(d["skills"])
  {
    ShowStored(Get(d, "skills", List([])))
  }

  /** The strings of a list whose every element is a string. */
  function Texts(items: seq<Value>): (r: Option<seq<string>>)
    ensures r.Some? <==> forall k | 0 <= k < |items| :: items[k].Str?
    ensures r.Some? ==> |r.value| == |items| && forall k | 0 <= k < |items| :: r.value[k] == items[k].s
  {
    if items == [] then Some([])
    else if !items[0].Str? then None
    else match Texts(items[1..])
      case None => None
      case Some(rest) => Some([items[0].s] + rest)
  }

  /** Iterating a string yields its characters as one-letter strings. */
  function Letters(s: string): (r: seq<string>)
    ensures |r| == |s|
    ensures forall k | 0 <= k < |s| :: r[k] == [s[k]]
  {
    if s == [] then [] else [[s[0]]] + Letters(s[1..])
  }

  /** Every piece is a skill the parser could have produced. */
  ghost predicate Clean(skills: seq<string>) {
    forall k | 0 <= k < |skills| :: Trimmed(skills[k]) && ',' !in skills[k]
  }

  /** The first piece as is, every later one behind a blank: what splitting
      the ", "-joined text on "," yields. */
  function Spaced(skills: seq<string>): (r: seq<string>)
    requires |skills| >= 1
    ensures |r| == |skills| && r[0] == skills[0]
    ensures forall k | 1 <= k < |skills| :: r[k] == " " + skills[k]
  {
    [skills[0]] + seq(|skills| - 1, k requires 0 <= k < |skills| - 1 => " " + skills[k + 1])
  }

  lemma {:induction false} ShowIsSpacedJoin(skills: seq<string>)
    requires |skills| >= 1
    ensures Show(skills) == Join(Spaced(skills), ",")
    decreases |skills|
  {
    if |skills| > 1 {
      var tail := skills[1..];
      ShowIsSpacedJoin(tail);
      var sp := Spaced(skills);
      assert sp[1..] == [" " + tail[0]] + Spaced(tail)[1..];
      JoinPrependBlank(Spaced(tail), ",");
    }
  }

  lemma JoinPrependBlank(parts: seq<string>, sep: string)
    requires |parts| >= 1
    ensures Join([" " + parts[0]] + parts[1..], sep) == " " + Join(parts, sep)
  {
    var q := [" " + parts[0]] + parts[1..];
    if |parts| > 1 {
      assert q[1..] == parts[1..];
    }
  }

  /** Editing round trip of the profile form: the stored list, shown for
      editing and parsed on save, comes back unchanged exactly when it is not
      the single empty skill `[""]`, which reads back as no skills at all. */
  lemma {:induction false} ParseShow(skills: seq<string>)
    requires Clean(skills)
    ensures Parse(Show(skills)) == skills <==> skills != [""]
  {
    if skills == [] {
    } else if skills == [""] {
      assert Show(skills) == "";
    } else {
      var sp := Spaced(skills);
      ShowIsSpacedJoin(skills);
      assert Show(skills) != "" by {
        if |skills| == 1 { assert Show(skills) == skills[0]; }
        else { assert Show(skills) == skills[0] + ", " + Show(skills[1..]); }
      }
      forall k | 0 <= k < |sp| ensures ',' !in sp[k] {
        if k > 0 { assert sp[k] == " " + skills[k]; }
      }
      SplitJoin(sp, ',');
      var r := Parse(Show(skills));
      forall k | 0 <= k < |skills| ensures r[k] == skills[k] {
        if k == 0 { StripTrimmed(skills[0]); } else { StripLeadingBlank(skills[k]); }
      }
    }
  }
}

=== FILE: store.dfy ===
/**
 The document database as the views use it: a collection maps a document
 id to a document, a document maps field names to values. Only the three
 write forms the views issue are modelled: a plain `set` (replace), a
 `set(..., merge=True)` (deep merge) and an `update` of one top-level field.
 */
module Store {

  /** A stored field value. Timestamps are opaque integers. */
  datatype Value = Null | Str(s: string) | Stamp(t: int) | List(items: seq<Value>) | Fields(fields: map<string, Value>) {

    /** Python truthiness of the value read back from the database. */
    predicate Truthy() {
      match this
      case Null => false
      case Str(s) => s != ""
      case Stamp(_) => true
      case List(items) => items != []
      case Fields(m) => m != map[]
    }

    /** The text an f-string shows for the value: the string itself, "None"
        for null; other kinds are never stored where text is read. */
    function Text(): string {
      match this
      case Str(s) => s
      case Null => "None"
      case _ => ""
    }
  }

  type Doc = map<string, Value>
  type Collection = map<string, Doc>

  /** `doc.get(key, default)`. */
  function Get(d: Doc, key: string, default: Value): (v: Value)
    ensures key in d ==> v == d[key]
    ensures key !in d ==> v == default
  {
    if key in d then d[key] else default
  }

  /** `collection.document(id).set(doc)`: the document under `id` becomes
      exactly `doc`; every other document is untouched. */
  function SetDoc(c: Collection, id: string, doc: Doc): (r: Collection)
    ensures r.Keys == c.Keys + {id}
    ensures r[id] == doc
    ensures forall other | other in c && other != id :: r[other] == c[other]
  {
    c[id := doc]
  }

  /** Every leaf that `u` writes is present in `r` with the value `u` gives
      it; maps in `u` are matched key by key. */
  ghost predicate Covers(r: Value, u: Value)
    decreases u
  {
    if u.Fields? then
      r.Fields? && forall k | k in u.fields :: k in r.fields && Covers(r.fields[k], u.fields[k])
    else r == u
  }

  /** Nothing of `o` is lost that `u` does not overwrite: every key of a
      map `o` is still in `r`, a key `u` does not write keeps its value, and
      where both hold maps under a key the same holds one level down. */
  ghost predicate Keeps(r: Value, o: Value, u: Value)
    decreases o
  {
    o.Fields? && u.Fields? ==>
      r.Fields? && forall k | k in o.fields ::
        && k in r.fields
        && (k !in u.fields ==> r.fields[k] == o.fields[k])
        && (k in u.fields ==> Keeps(r.fields[k], o.fields[k], u.fields[k]))
  }

  lemma {:induction false} CoversReflexive(u: Value)
    ensures Covers(u, u)
    decreases u
  {
    if u.Fields? {
      forall k | k in u.fields
        ensures Covers(u.fields[k], u.fields[k])
      {
        CoversReflexive(u.fields[k]);
      }
    }
  }

  /** The merge of `u` onto `o`: two maps merge key by key, anything else in
      `u` replaces what was there. */
  function MergeValue(o: Value, u: Value): (r: Value)
    ensures !(o.Fields? && u.Fields?) ==> r == u
    ensures o.Fields? && u.Fields? ==>
      && r.Fields?
      && r.fields.Keys == o.fields.Keys + u.fields.Keys
      && forall k | k in o.fields && k !in u.fields :: r.fields[k] == o.fields[k]
    decreases u
  {
    if o.Fields? && u.Fields? then
      Fields(map k | k in o.fields.Keys + u.fields.Keys ::
        if k in u.fields then
          (if k in o.fields then MergeValue(o.fields[k], u.fields[k]) else u.fields[k])
        else o.fields[k])
    else u
  }

  lemma {:induction false} MergeValueCovers(o: Value, u: Value)
    ensures Covers(MergeValue(o, u), u)
    decreases u
  {
    var r := MergeValue(o, u);
    if o.Fields? && u.Fields? {
      forall k | k in u.fields
        ensures k in r.fields && Covers(r.fields[k], u.fields[k])
      {
        if k in o.fields {
          MergeValueCovers(o.fields[k], u.fields[k]);
        } else {
          CoversReflexive(u.fields[k]);
        }
      }
    } else {
      CoversReflexive(u);
    }
  }

  /** The merge is deep: at every depth of nested maps, a field the update
      does not name keeps its old value. */
  lemma {:induction false} MergeValueKeeps(o: Value, u: Value)
    ensures Keeps(MergeValue(o, u), o, u)
    decreases o
  {
    if o.Fields? && u.Fields? {
      var r := MergeValue(o, u);
      forall k | k in o.fields && k in u.fields
        ensures Keeps(r.fields[k], o.fields[k], u.fields[k])
      {
        MergeValueKeeps(o.fields[k], u.fields[k]);
      }
    }
  }

  /** `document(id).set(doc, merge=True)`: a missing document is created as
      `upd`; an existing one keeps every field `upd` does not name, nested
      maps are merged field by field, and every other document is untouched. */
  function MergeDoc(c: Collection, id: string, upd: Doc): (r: Collection)
    ensures r.Keys == c.Keys + {id}
    ensures forall other | other in c && other != id :: r[other] == c[other]
    ensures id !in c ==> r[id] == upd
    ensures id in c ==> r[id].Keys == c[id].Keys + upd.Keys
    ensures id in c ==> forall k | k in c[id] && k !in upd :: r[id][k] == c[id][k]
    ensures forall k | k in upd && !upd[k].Fields? :: r[id][k] == upd[k]
    ensures Covers(Fields(r[id]), Fields(upd))
    ensures id in c ==> Keeps(Fields(r[id]), Fields(c[id]), Fields(upd))
  {
    var prior := if id in c then c[id] else map[];
    var merged := MergeValue(Fields(prior), Fields(upd));
    MergeValueCovers(Fields(prior), Fields(upd));
    MergeValueKeeps(Fields(prior), Fields(upd));
    assert id !in c ==> merged.fields == upd;
    c[id := merged.fields]
  }

  /** Merging the same update twice gives what merging it once gave. */
  lemma {:induction false} MergeValueIdempotent(o: Value, u: Value)
    ensures MergeValue(MergeValue(o, u), u) == MergeValue(o, u)
    decreases u
  {
    var r := MergeValue(o, u);
    if o.Fields? && u.Fields? {
      var rr := MergeValue(r, u);
      forall k | k in u.fields && k in o.fields
        ensures MergeValue(r.fields[k], u.fields[k]) == r.fields[k]
      {
        MergeValueIdempotent(o.fields[k], u.fields[k]);
      }
      forall k | k in u.fields && k !in o.fields
        ensures MergeValue(r.fields[k], u.fields[k]) == r.fields[k]
      {
        MergeValueSelf(u.fields[k]);
      }
      assert rr.fields == r.fields;
      assert rr == Fields(rr.fields) && r == Fields(r.fields);
    } else {
      MergeValueSelf(u);
    }
  }

  lemma {:induction false} MergeValueSelf(u: Value)
    ensures MergeValue(u, u) == u
    decreases u
  {
    if u.Fields? {
      forall k | k in u.fields
        ensures MergeValue(u.fields[k], u.fields[k]) == u.fields[k]
      {
        MergeValueSelf(u.fields[k]);
      }
      assert MergeValue(u, u).fields == u.fields;
    }
  }

  /** A profile save repeated with the same data leaves the store as the
      first save left it. */
  lemma MergeDocIdempotent(c: Collection, id: string, upd: Doc)
    ensures MergeDoc(MergeDoc(c, id, upd), id, upd) == MergeDoc(c, id, upd)
  {
    var prior := if id in c then c[id] else map[];
    MergeValueIdempotent(Fields(prior), Fields(upd));
  }

  /** `document(id).update({field: v})`: replaces one top-level field of an
      existing document, every other field and document untouched. */
  function UpdateField(c: Collection, id: string, field: string, v: Value): (r: Collection)
    requires id in c
    ensures r.Keys == c.Keys
    ensures r[id].Keys == c[id].Keys + {field} && r[id][field] == v
    ensures forall k | k in c[id] && k != field :: r[id][k] == c[id][k]
    ensures forall other | other in c && other != id :: r[other] == c[other]
  {
    c[id := c[id][field := v]]
  }
}

=== FILE: text.dfy ===
/**
 The string operations the views use: `str.strip()`, `str.split(sep)`,
 `sep.join(parts)`, `str.capitalize()` and the substring test `t in s`.
 Characters are Dafny chars; whitespace and case are the ASCII part of
 Python's definitions.
 */
module Text {

  /** Python's `str.isspace()` restricted to code points below 128:
      tab, line feed, vertical tab, form feed, carriage return,
      the four separators 0x1C-0x1F and space. */
  predicate IsSpace(c: char) {
    c == ' ' || ('\U{9}' <= c <= '\U{D}') || ('\U{1C}' <= c <= '\U{1F}')
  }

  predicate AllSpace(s: string) {
    forall i | 0 <= i < |s| :: IsSpace(s[i])
  }

  /** Neither end of `s` is whitespace: `s.strip() == s`. */
  predicate Trimmed(s: string) {
    s == [] || (!IsSpace(s[0]) && !IsSpace(s[|s| - 1]))
  }

  /** `s.lstrip()`: the suffix left after dropping leading whitespace. */
  function StripLeft(s: string): (r: string)
    ensures |r| <= |s| && r == s[|s| - |r|..]
    ensures AllSpace(s[..|s| - |r|])
    ensures r == [] || !IsSpace(r[0])
  {
    if |s| > 0 && IsSpace(s[0]) then
      var r := StripLeft(s[1..]);
      assert s[1..][|s| - 1 - |r|..] == s[|s| - |r|..];
      assert forall k | 1 <= k < |s| - |r| :: s[k] == s[1..][..|s| - 1 - |r|][k - 1];
      r
    else s
  }

  /** `s.rstrip()`: the prefix left after dropping trailing whitespace. */
  function StripRight(s: string): (r: string)
    ensures |r| <= |s| && r == s[..|r|]
    ensures AllSpace(s[|r|..])
    ensures r == [] || !IsSpace(r[|r| - 1])
  {
    if |s| > 0 && IsSpace(s[|s| - 1]) then
      var r := StripRight(s[..|s| - 1]);
      assert forall k | |r| <= k < |s| - 1 :: s[k] == s[..|s| - 1][|r|..][k - |r|];
      r
    else s
  }

  /** `r` is `s[i..j]` with only whitespace before `i` and after `j`. */
  predicate Middle(r: string, s: string, i: int, j: int) {
    0 <= i <= j <= |s| && r == s[i..j] && AllSpace(s[..i]) && AllSpace(s[j..])
  }

  /** `s.strip()`: the middle of `s` between a whitespace prefix and a
      whitespace suffix, itself starting and ending with non-whitespace. */
  function Strip(s: string): (r: string)
    ensures Trimmed(r)
    ensures exists i, j :: Middle(r, s, i, j)
  {
    StripEnds(s);
    StripMiddle(s);
    StripRight(StripLeft(s))
  }

  lemma StripEnds(s: string)
    ensures Trimmed(StripRight(StripLeft(s)))
  {
    var l := StripLeft(s);
    var r := StripRight(l);
    assert r == [] || r[0] == l[0];
  }

  lemma StripMiddle(s: string)
    ensures exists i, j :: Middle(StripRight(StripLeft(s)), s, i, j)
  {
    var l := StripLeft(s);
    var r := StripRight(l);
    MiddleOfSuffixPrefix(s, l, r);
  }

  /** A prefix `r` of a suffix `l` of `s`, with only whitespace cut off on
      either side, is a middle of `s`. */
  lemma MiddleOfSuffixPrefix(s: string, l: string, r: string)
    requires |l| <= |s| && l == s[|s| - |l|..] && AllSpace(s[..|s| - |l|])
    requires |r| <= |l| && r == l[..|r|] && AllSpace(l[|r|..])
    ensures Middle(r, s, |s| - |l|, |s| - |l| + |r|)
  {
    var i := |s| - |l|;
    var j := i + |r|;
    assert r == s[i..j];
    assert s[j..] == l[|r|..];
  }

  /** A trimmed string is its own strip. */
  lemma {:induction false} StripTrimmed(s: string)
    requires Trimmed(s)
    ensures Strip(s) == s
  {
    assert StripLeft(s) == s;
    assert StripRight(s) == s;
  }

  /** Stripping `" " + s` gives `s` back when `s` is trimmed. */
  lemma {:induction false} StripLeadingBlank(s: string)
    requires Trimmed(s)
    ensures Strip(" " + s) == s
  {
    assert (" " + s)[1..] == s;
    assert StripLeft(" " + s) == StripLeft(s) == s;
    StripTrimmed(s);
  }

  /** Strip is idempotent. */
  lemma StripIdempotent(s: string)
    ensures Strip(Strip(s)) == Strip(s)
  {
    StripTrimmed(Strip(s));
  }

  /** Number of occurrences of `c` in `s`. */
  function Count(s: string, c: char): (n: nat)
    ensures n <= |s|
    ensures n == 0 <==> c !in s
  {
    if s == [] then 0 else (if s[0] == c then 1 else 0) + Count(s[1..], c)
  }

  /** `str.count` of one character is its multiplicity in the string. */
  lemma {:induction false} CountIsMultiplicity(s: string, c: char)
    ensures Count(s, c) == multiset(s)[c]
  {
    if s != [] {
      assert s == [s[0]] + s[1..];
      CountIsMultiplicity(s[1..], c);
    }
  }

  /** `sep.join(parts)`. */
  function Join(parts: seq<string>, sep: string): string {
    if |parts| == 0 then ""
    else if |parts| == 1 then parts[0]
    else parts[0] + sep + Join(parts[1..], sep)
  }

  /** `s.split(c)` for a one-character separator: the pieces between
      occurrences of `c`, empty pieces included, one more than there are
      separators, and joining them with `c` gives `s` back. */
  function Split(s: string, c: char): (parts: seq<string>)
    ensures |parts| == Count(s, c) + 1
    ensures forall k | 0 <= k < |parts| :: c !in parts[k]
    ensures Join(parts, [c]) == s
  {
    if s == [] then [""]
    else
      var rest := Split(s[1..], c);
      if s[0] == c then
        JoinBehindEmpty(rest, c);
        assert [c] + s[1..] == s;
        [""] + rest
      else
        JoinExtendFirst(s[0], rest, c);
        assert [s[0]] + s[1..] == s;
        [[s[0]] + rest[0]] + rest[1..]
  }

  /** An empty first piece contributes only its separator. */
  lemma JoinBehindEmpty(parts: seq<string>, c: char)
    requires |parts| >= 1
    ensures Join([""] + parts, [c]) == [c] + Join(parts, [c])
  {
    assert ([""] + parts)[1..] == parts;
  }

  /** A character put in front of the first piece comes first in the join. */
  lemma JoinExtendFirst(x: char, parts: seq<string>, c: char)
    requires |parts| >= 1
    ensures Join([[x] + parts[0]] + parts[1..], [c]) == [x] + Join(parts, [c])
  {
    var head := parts[0];
    var q := [[x] + head] + parts[1..];
    if |parts| == 1 {
      assert q == [[x] + head];
    } else {
      var tail := Join(parts[1..], [c]);
      assert q[1..] == parts[1..];
      assert Join(parts, [c]) == head + [c] + tail;
      calc {
        Join(q, [c]);
        ([x] + head) + [c] + tail;
        [x] + (head + [c] + tail);
        [x] + Join(parts, [c]);
      }
    }
  }

  /** The other direction of the split/join round trip: pieces free of
      the separator are recovered by splitting their join. */
  lemma {:induction false} SplitJoin(parts: seq<string>, c: char)
    requires |parts| >= 1
    requires forall k | 0 <= k < |parts| :: c !in parts[k]
    ensures Split(Join(parts, [c]), c) == parts
    decreases |parts|
  {
    if |parts| == 1 {
      SplitNoSeparator(parts[0], c);
    } else {
      var tail := parts[1..];
      assert forall k | 0 <= k < |tail| :: tail[k] == parts[k + 1];
      SplitJoin(tail, c);
      SplitPiece(parts[0], Join(tail, [c]), c);
    }
  }

  /** Splitting a separator-free piece, a separator and the rest yields the
      piece followed by the pieces of the rest. */
  lemma {:induction false} SplitPiece(a: string, b: string, c: char)
    requires c !in a
    ensures Split(a + [c] + b, c) == [a] + Split(b, c)
    decreases |a|
  {
    if a == [] {
      assert a + [c] + b == [c] + b;
      SplitAfterSeparator(b, c);
    } else {
      SplitPiece(a[1..], b, c);
      SplitConsPiece(a[0], a[1..] + [c] + b, a[1..], Split(b, c), c);
      Regroup(a, b, c);
    }
  }

  /** The step of `SplitPiece`: a character that is not the separator
      joins the first piece. */
  lemma SplitConsPiece(x: char, rest: string, piece: string, tail: seq<string>, c: char)
    requires x != c
    requires Split(rest, c) == [piece] + tail
    ensures Split([x] + rest, c) == [[x] + piece] + tail
  {
    SplitAfterOther(rest, x, c);
  }

  lemma Regroup(a: string, b: string, c: char)
    requires a != []
    ensures [a[0]] + (a[1..] + [c] + b) == a + [c] + b
    ensures [a[0]] + a[1..] == a
  {
  }

  lemma SplitAfterSeparator(s: string, c: char)
    ensures Split([c] + s, c) == [""] + Split(s, c)
  {
    assert ([c] + s)[1..] == s;
  }

  lemma SplitAfterOther(s: string, x: char, c: char)
    requires x != c
    ensures Split([x] + s, c) == [[x] + Split(s, c)[0]] + Split(s, c)[1..]
  {
    assert ([x] + s)[1..] == s;
  }

  /** A string free of the separator splits into itself. */
  lemma {:induction false} SplitNoSeparator(s: string, c: char)
    requires c !in s
    ensures Split(s, c) == [s]
    decreases |s|
  {
    if s != [] {
      SplitNoSeparator(s[1..], c);
      assert [s[0]] + s[1..] == s;
    }
  }

  /** The last of the pieces of `s.split(c)`: the text after the last `c`. */
  function AfterLast(s: string, c: char): (r: string)
    ensures c !in r
    ensures |r| <= |s| && r == s[|s| - |r|..]
    ensures |r| < |s| ==> s[|s| - |r| - 1] == c
  {
    var parts := Split(s, c);
    LastPieceIsSuffix(parts, c);
    parts[|parts| - 1]
  }

  lemma {:induction false} LastPieceIsSuffix(parts: seq<string>, c: char)
    requires |parts| >= 1
    ensures var j := Join(parts, [c]); var p := parts[|parts| - 1];
      |p| <= |j| && p == j[|j| - |p|..] && (|p| < |j| ==> j[|j| - |p| - 1] == c)
  {
    if |parts| > 1 {
      LastPieceIsSuffix(parts[1..], c);
    }
  }

  /** The first of the pieces of `s.split(c)`: the text before the first `c`. */
  function BeforeFirst(s: string, c: char): (r: string)
    ensures c !in r
    ensures |r| <= |s| && r == s[..|r|]
    ensures |r| < |s| ==> s[|r|] == c
  {
    var parts := Split(s, c);
    FirstPieceIsPrefix(parts, c);
    parts[0]
  }

  lemma {:induction false} FirstPieceIsPrefix(parts: seq<string>, c: char)
    requires |parts| >= 1
    ensures var j := Join(parts, [c]); var p := parts[0];
      |p| <= |j| && p == j[..|p|] && (|p| < |j| ==> j[|p|] == c)
  {
    if |parts| > 1 {
      assert Join(parts, [c]) == parts[0] + [c] + Join(parts[1..], [c]);
    }
  }

  /** The suffix after the last `c` is the only separator-free suffix that
      is the whole string or follows a `c`. */
  lemma AfterLastUnique(s: string, c: char, t: string)
    requires |t| <= |s| && t == s[|s| - |t|..]
    requires c !in t
    requires |t| < |s| ==> s[|s| - |t| - 1] == c
    ensures AfterLast(s, c) == t
  {
  }

  /** The prefix before the first `c` is the only separator-free prefix that
      is the whole string or is followed by a `c`. */
  lemma BeforeFirstUnique(s: string, c: char, t: string)
    requires |t| <= |s| && t == s[..|t|]
    requires c !in t
    requires |t| < |s| ==> s[|t|] == c
    ensures BeforeFirst(s, c) == t
  {
  }

  /** Python's `t in s` on strings. */
  predicate Contains(s: string, t: string) {
    t <= s || (|s| > 0 && Contains(s[1..], t))
  }

  function Upper(c: char): char {
    if 'a' <= c <= 'z' then (c as int - 32) as char else c
  }

  function Lower(c: char): char {
    if 'A' <= c <= 'Z' then (c as int + 32) as char else c
  }

  /** `s.capitalize()`: the first character in upper case, every other in
      lower case, the length unchanged. */
  function Capitalize(s: string): (r: string)
    ensures |r| == |s|
    ensures |s| > 0 ==> r[0] == Upper(s[0])
    ensures forall k | 1 <= k < |s| :: r[k] == Lower(s[k])
  {
    if s == [] then [] else [Upper(s[0])] + seq(|s| - 1, k requires 0 <= k < |s| - 1 => Lower(s[k + 1]))
  }

  /** Capitalising twice changes nothing more. */
  lemma CapitalizeIdempotent(s: string)
    ensures Capitalize(Capitalize(s)) == Capitalize(s)
  {
  }
}

=== FILE: users.dfy ===
/**
 The shape of a user document as the signup and profile views write it,
 and the display name both the announcement and member views derive from
 first and last name.
 */
module Users {
  import opened Text
  import opened Store
  import Skills

  /** The generated avatar used when no picture URL is stored. */
  const AvatarPlaceholder := "https://ui-avatars.com/api/?name=User&background=random"

  /** The object-store key of an uploaded picture: the user id and a fresh
      token under the "profile_pics/" folder. */
  function PictureKey(uid: string, token: string): (k: string)
    ensures "profile_pics/" <= k
    ensures k[|"profile_pics/"|..] == uid + "_" + token
  {
    "profile_pics/" + uid + "_" + token
  }

  datatype Address = Address(street: string, city: string, state: string, zipCode: string, country: string)

  /** The text inputs shared by the signup and the profile form. */
  datatype ProfileFields = ProfileFields(
    firstName: string, lastName: string, company: string, position: string, phone: string,
    address: Address, bio: string, skills: string)

  function AddressValue(a: Address): Value {
    Fields(map["street" := Str(a.street), "city" := Str(a.city), "state" := Str(a.state),
               "zip_code" := Str(a.zipCode), "country" := Str(a.country)])
  }

  /** The fields both forms write: the e-mail, the form's texts, the nested
      address, the picture value and the parsed skills list. */
  function ProfileDoc(email: string, f: ProfileFields, picture: Value): (d: Doc)
    ensures "role" !in d && "created_at" !in d && "last_updated" !in d
    ensures "email" in d && "profile_pic_url" in d && "address" in d && "skills" in d
    ensures d["email"] == Str(email) && d["profile_pic_url"] == picture
    ensures d["address"].Fields? && d["address"].fields.Keys == {"street", "city", "state", "zip_code", "country"}
    ensures d["address"].fields["city"] == Str(f.address.city) && d["address"].fields["country"] == Str(f.address.country)
    ensures d["skills"] == Skills.Stored(Skills.Parse(f.skills))
    ensures forall k | k in FormTexts(f) :: k in d && d[k] == FormTexts(f)[k]
  {
    FormTexts(f)["email" := Str(email)]["address" := AddressValue(f.address)]
      ["profile_pic_url" := picture]["skills" := Skills.Stored(Skills.Parse(f.skills))]
  }

  /** The plain text fields of the form. */
  function FormTexts(f: ProfileFields): (m: Doc)
    ensures "role" !in m && "created_at" !in m && "last_updated" !in m
    ensures "email" !in m && "address" !in m && "profile_pic_url" !in m && "skills" !in m
  {
    map["first_name" := Str(f.firstName), "last_name" := Str(f.lastName), "company" := Str(f.company),
        "position" := Str(f.position), "phone" := Str(f.phone), "bio" := Str(f.bio)]
  }

  /** The value of every field both forms write. */
  lemma ProfileDocValues(email: string, f: ProfileFields, picture: Value)
    ensures var d := ProfileDoc(email, f, picture);
      && d["first_name"] == Str(f.firstName) && d["last_name"] == Str(f.lastName)
      && d["company"] == Str(f.company) && d["position"] == Str(f.position)
      && d["phone"] == Str(f.phone) && d["bio"] == Str(f.bio)
      && d["address"] == AddressValue(f.address)
  {
    var t := FormTexts(f);
    assert t["first_name"] == Str(f.firstName) && t["last_name"] == Str(f.lastName);
    assert t["company"] == Str(f.company) && t["position"] == Str(f.position);
    assert t["phone"] == Str(f.phone) && t["bio"] == Str(f.bio);
  }

  /** The address map holds the five address inputs under their keys. */
  lemma AddressFields(a: Address)
    ensures var m := AddressValue(a).fields;
      && m.Keys == {"street", "city", "state", "zip_code", "country"}
      && m["street"] == Str(a.street) && m["city"] == Str(a.city) && m["state"] == Str(a.state)
      && m["zip_code"] == Str(a.zipCode) && m["country"] == Str(a.country)
  {
  }

  /** The ten fields both forms write, and no others. */
  lemma ProfileDocKeys(email: string, f: ProfileFields, picture: Value)
    ensures ProfileDoc(email, f, picture).Keys ==
      {"email", "first_name", "last_name", "company", "position", "phone", "address", "profile_pic_url", "skills", "bio"}
  {
  }

  /** `f"{first} {last}".strip()`: the joined names between a blank prefix
      and a blank suffix; empty exactly when both names are blank. */
  function FullName(first: string, last: string): (r: string)
    ensures Trimmed(r)
    ensures exists i, j :: Middle(r, first + " " + last, i, j)
    ensures r == "" <==> AllSpace(first) && AllSpace(last)
  {
    FullNameBlank(first, last);
    Strip(first + " " + last)
  }

  /** The name stored in a user document, missing parts read as "". */
  function DocName(d: Doc): string {
    FullName(Get(d, "first_name", Str("")).Text(), Get(d, "last_name", Str("")).Text())
  }

  lemma FullNameBlank(first: string, last: string)
    ensures Strip(first + " " + last) == "" <==> AllSpace(first) && AllSpace(last)
  {
    var joined := first + " " + last;
    if AllSpace(first) && AllSpace(last) {
      assert AllSpace(joined);
      BlankStripsToEmpty(joined);
    } else {
      if !AllSpace(first) {
        var k :| 0 <= k < |first| && !IsSpace(first[k]);
        assert joined[k] == first[k];
      } else {
        var k :| 0 <= k < |last| && !IsSpace(last[k]);
        assert joined[|first| + 1 + k] == last[k];
      }
      NonBlankSurvivesStrip(joined);
    }
  }

  lemma {:induction false} BlankStripsToEmpty(s: string)
    requires AllSpace(s)
    ensures Strip(s) == ""
  {
    assert StripLeft(s) == "";
  }

  lemma NonBlankSurvivesStrip(s: string)
    requires !AllSpace(s)
    ensures Strip(s) != ""
  {
  }
}
